=== FILE: README.md ===
# A model of the front end of the `pl` compiler

The compiler reads a source file, lexes it, and parses it with a
recursive-descent parser that follows `import` declarations into further
files. It then lowers the signatures of the function definitions to LLVM
types. This project models that core in Dafny and proves properties of the
model:

- **The scanner** (`Lexer::next` and its two helpers) is a pure function from
  the text and a cursor to a token and a new cursor. `Lexer.Tokenize` calls it
  until it returns the end-of-input token.
- **The parser** (`FileParser`) works over an immutable token sequence with an
  explicit cursor. Each parsing member is a function returning either the node
  it builds with the cursor after it, or the diagnostic that the program prints
  before exiting. The AST is a closed datatype (`Ast`).
- **The file walk** (`Parser::parse` and `FileParser::parse`) threads the
  parser's shared state through a `Walk`:
  - `parsedFiles`, the set of paths already marked parsed;
  - `pathToModule`;
  - `files`, the list of parsed files.

  Each readable file's tokens are looked up in a map `sources`.
- **Import-path resolution** covers the `std:` prefix, the `.pl` suffix, and
  `operator/` and `parent_path` of `std::filesystem::path` on POSIX path
  strings.
- **The definitions pass** of the generator covers:
  - `typeInfo`;
  - `GType::type`;
  - the loop that registers one signature per function name.

  LLVM types are abstracted to `i32 | i8 | void | null | opaque pointer`.

The partner definitions that the proofs connect the operations to are:

- **`Spelling`**: a position-by-position grammar that says where a type or
  an expression is written in a token vector. `RoundTrip` proves that
  `parseType` reads types back from it, and `ExprRoundTrip` proves the same
  for `parseExpression`. Operands are parenthesised only where the
  precedence table requires it, so the second proof covers precedence and
  left associativity.
- **`LexerRoundTrip.Render`**: writes tokens back out as text.
- **`Generator.FirstDefinition`**: the reference for registration.
- **`Imports.Sound`, `Imports.Extends` and `Imports.Covers`**: the invariants of the walk. The first two say no path is filed twice; the last says every marked path is filed.

## Model

| member | source | states |
|---|---|---|
| Lexer.SkipSpaces | src/lexer.cpp:16-24 | the whitespace loop stops at the first non-space character or at the end of the input, and every character it passes is a space |
| Lexer.ScanIdentOrKeyword | src/lexer.cpp:61-76 | the lexeme is the maximal run of letters, digits and `_`; the token is the `fn` keyword exactly when the lexeme is `fn`, and an identifier carrying the lexeme otherwise |
| Lexer.ScanStringLiteral | src/lexer.cpp:78-95 | the value is the text strictly between the opening quote and the next quote, and the cursor ends after the closing quote; an unterminated literal runs to the end of the input and is still a string literal |
| Lexer.DelimiterKind | src/lexer.cpp:36-52 | exactly the five characters `{ } ( ) ;` are delimiters, and each gets one of the five delimiter kinds |
| Lexer.DelimiterText | src/lexer.cpp:38-52 | the text returned with a delimiter kind: exactly the five delimiter kinds have one |
| Lexer.DelimiterKindText | src/lexer.cpp:36-52 | a character gets a delimiter kind exactly when it is that kind's text: `{` is a left brace, `}` a right brace, `(` and `)` the parentheses, `;` the semicolon |
| Lexer.DelimiterKindsDistinct | src/lexer.cpp:36-52 | two delimiter characters with the same kind are the same character, so the five kinds are distinct |
| Lexer.NextOneChar | src/lexer.cpp:36-55 | a delimiter becomes its own kind, and any other non-letter, non-quote character becomes an unknown token; either way the value is that one character and the cursor advances by exactly one |
| Lexer.Next | src/lexer.cpp:14-59 | the end-of-input token is returned exactly when only whitespace remains; it has an empty value and leaves the cursor at the end; every other token strictly advances the cursor |
| Lexer.Tokenize | src/lexer.cpp:16-58 | calling `next` repeatedly reaches the end-of-input token, which closes the stream and occurs nowhere else in it |
| LexerRoundTrip.NextSpelled | src/lexer.cpp:14-95 | a token written at a position and followed by a blank or the end of input is exactly what `next` returns there, with the cursor after it |
| LexerRoundTrip.LexRenderRoundTrip | src/lexer.cpp:14-95 | scanning the rendering of renderable tokens gives the same tokens back, followed by the end-of-input token |
| LexerRoundTrip.TokenizeRender | src/lexer.cpp:14-95 | scanning from a point where the rest of the input is the rendering of renderable tokens yields exactly those tokens, then the end-of-input token |
| Numbers.StoINatToString | src/parser.cpp:188 | `std::stoi` reads back the decimal spelling of every non-negative number up to `INT_MAX` |
| Numbers.StoINegative | src/parser.cpp:474 | `-` followed by the decimal spelling of `n` is read as `-n` whenever `-n` is at or above `INT_MIN` |
| Numbers.StoIPlusSign | src/parser.cpp:474 | a leading `+` is accepted and changes nothing, up to `INT_MAX` |
| Numbers.StoINegativeOutOfRange | src/parser.cpp:474 | a negative spelling below `INT_MIN` is an error |
| Numbers.StoIOutOfRange | src/parser.cpp:474 | an unsigned spelling above `INT_MAX` is an error |
| Parser.AtEof | src/parser.cpp:634-637 | `eof` reads the current token, and is true exactly when it is the end-of-input token |
| Parser.Expect | src/parser.cpp:615-632 | `expect` succeeds only on a token of the expected kind, and returns it |
| Parser.ExpectConsume | src/parser.cpp:607-613 | on success `expectConsume` returns the token under the cursor and advances the cursor by exactly one |
| Parser.ExpectConsumeIs | src/parser.cpp:607-632 | `expectConsume` succeeds exactly when the current token has the expected kind and is not the end of input, and otherwise fails with the given message |
| RoundTrip.SigilRun | src/parser.cpp:177-181 | the sigil loop of `parseType` stops right after the run of `*` tokens |
| RoundTrip.TypeRoundTrip | src/parser.cpp:172-211 | `parseType` reads back every printable type from its spelling, with the pointer level equal to the number of leading `*` and the cursor right after the type |
| RoundTrip.ArraySuffixParses | src/parser.cpp:187-191 | `[T; n]` becomes an array of `T` with size `stoi(n)` at the current pointer level |
| RoundTrip.StructTypeParses | src/parser.cpp:194-202 | `m:N` becomes struct `N` of module `m` |
| RoundTrip.NamedTypeParses | src/parser.cpp:194-210 | a builtin name not followed by `:` becomes a plain named type |
| RoundTrip.BareStructParses | src/parser.cpp:194-206 | a name that is not builtin and not followed by `:` becomes a struct of the current module |
| RoundTrip.BareStructRoundTrip | src/parser.cpp:172-206 | `*`…`*` followed by a bare non-builtin name is a struct of the current module, with the pointer level equal to the number of `*` |
| Parser.ParseNamedType | src/parser.cpp:194-210 | a type name is read exactly when it is an identifier, and, when `:` follows it, another identifier after the `:`; `m:N` is struct `N` of module `m` and takes three tokens, a bare builtin name is a plain type and any other bare name is a struct of the current module, each taking one token |
| Parser.ParseArraySize | src/parser.cpp:187-191 | an array type is closed exactly by `; n ]` where `stoi` reads `n`, and it then has size `n`, the element type already read and the pointer level of its sigils; anything else is fatal |
| Parser.ParseType | src/parser.cpp:172-211 | a parsed type consumes at least one token and stays inside the token vector |
| Parser.Prec | src/parser.cpp:399-425 | the precedence table ranges over -1..5, and -1 stops an expression |
| Parser.Climb | src/parser.cpp:427-449 | the climbing loop stops exactly in front of an operator that binds more loosely than the requested level |
| Parser.ParseUnary | src/parser.cpp:451-463 | a unary expression consumes at least one token |
| Parser.AccessPath | src/parser.cpp:518-539 | an identifier with no steps is a variable, and with steps it is an access path; either carries the identifier's name |
| Parser.ParseIdentifierForm | src/parser.cpp:489-539 | a name before `{` or `(` is a struct literal or a call of the current module; `m:N` before `(` or `{` is one of module `m`; every other form is a variable or access path named by the first identifier, so after `m:N` the variable is `m` |
| Parser.ParseSteps | src/parser.cpp:520-534 | the step loop stops in front of the first token that is neither `[` nor `.` |
| Parser.ParseArrayElements | src/parser.cpp:541-556 | an array literal has at least one element, and its loop stops on a `]` |
| Parser.ParseArguments | src/parser.cpp:365-374 | the argument loop stops on `)` |
| Parser.ParseFunctionCall | src/parser.cpp:355-379 | a call records the module it was called in |
| Parser.ParseStructLiteral | src/parser.cpp:562-585 | a struct literal records the module it names |
| Parser.ParseFieldInits | src/parser.cpp:572-580 | the field loop stops on `}` |
| Parser.ParseSpecial | src/parser.cpp:587-605 | a special form after `@` consumes at least its name |
| ExprRoundTrip.ExpressionRoundTrip | src/parser.cpp:427-556 | every printable expression, written with the fewest parentheses the precedence table needs and followed by a token that ends an expression, parses back to itself, with the cursor right after it |
| ExprRoundTrip.SpellingUnambiguous | src/parser.cpp:427-449 | two printable expressions written at the same place, each followed by a token that ends an expression, are the same expression |
| ExprRoundTrip.ExprParses | src/parser.cpp:427-449 | an expression written as an operand at level `p` and followed by a token of lower precedence parses at level `p` to that expression |
| ExprRoundTrip.LeftClimb | src/parser.cpp:427-449 | the tokens of an operand followed by an operator that binds no tighter than the operand's own operator parse, at any lower or equal level, to that operand, with the loop left in front of the operator; this is left associativity |
| ExprRoundTrip.BinaryClimb | src/parser.cpp:431-446 | for `l op r` with `op` at or above the level, the loop consumes `op`, reads `r` one level tighter, and continues with `l op r` as its left operand |
| ExprRoundTrip.UnaryParses | src/parser.cpp:451-463 | every operand that is not a bare binary expression is read whole by `parseUnary` |
| ExprRoundTrip.PrefixParses | src/parser.cpp:455-460 | a prefix operator applies to the whole unary operand written after it |
| ExprRoundTrip.ParenParses | src/parser.cpp:483-488 | a parenthesised expression is read at level 0 and its `)` is consumed |
| ExprRoundTrip.PrimaryParses | src/parser.cpp:465-556 | each primary form reads back from its spelling |
| ExprRoundTrip.IntParses | src/parser.cpp:473-474 | the decimal spelling of a non-negative number up to `INT_MAX` is read back as that number |
| ExprRoundTrip.VarParses | src/parser.cpp:489-539 | a name followed by none of `{ ( : [ .` is a variable |
| ExprRoundTrip.AccessParses | src/parser.cpp:518-537 | a name followed by steps is an access path carrying exactly those steps |
| ExprRoundTrip.StepsParse | src/parser.cpp:518-534 | the step loop reads every written `[index]` and `.field`, in order |
| ExprRoundTrip.StepParses | src/parser.cpp:520-532 | one `[index]` or `.field` step is read and prepended to the steps after it |
| ExprRoundTrip.CallParses | src/parser.cpp:502-510 | `m:f(args)` is a call of `f` in module `m` with exactly the written arguments |
| ExprRoundTrip.ArgsParse | src/parser.cpp:365-374 | the argument loop reads every written argument, in order, up to the `)` |
| ExprRoundTrip.StructLitParses | src/parser.cpp:502-515 | `m:S{f: v, ...}` is a literal of struct `S` of module `m` with exactly the written fields |
| ExprRoundTrip.InitsParse | src/parser.cpp:572-580 | the field loop reads every written `field : value`, in order, up to the `}` |
| ExprRoundTrip.ArrayLitParses | src/parser.cpp:541-556 | `[e, ...]` is an array literal of exactly the written elements |
| ExprRoundTrip.ElementsParse | src/parser.cpp:543-551 | the element loop reads every written element and stops in front of the `]` |
| ExprRoundTrip.CastParses | src/parser.cpp:587-605 | `@cast(T, e)` is a cast of `e` to the type `T` |
| ExprRoundTrip.TimesBindsTighter | src/parser.cpp:399-425 | `1 + 2 * 3` groups as `1 + (2 * 3)` |
| ExprRoundTrip.MinusGroupsLeft | src/parser.cpp:427-449 | `a - b - c` groups as `(a - b) - c` |
| ExprRoundTrip.ParenthesesGroup | src/parser.cpp:483-488 | `(a + b) * c` keeps the parenthesised sum as the left operand |
| ExprRoundTrip.PrefixBindsTightest | src/parser.cpp:451-463 | `- - a < b` groups as `(-(-a)) < b` |
| Parser.ParseAssign | src/parser.cpp:234-245 | an assignment is an expression, `=`, a second expression and `;`: its two sides are those expressions and the `;` is its last token |
| Parser.ParseBlock | src/parser.cpp:247-260 | a block starts with `{` and ends with the `}` it consumes |
| Parser.ParseStatements | src/parser.cpp:251-255 | the statement loop stops on `}` |
| Parser.ParseWhile | src/parser.cpp:262-269 | a `while` statement yields a loop node |
| Parser.ParseReturn | src/parser.cpp:325-333 | a return statement starts with `return` |
| Parser.ParseVariableDecl | src/parser.cpp:381-397 | a declaration yields a variable-declaration node |
| Parser.ParseCallStatement | src/parser.cpp:305-322 | a call statement yields a call node |
| Parser.ParseLocal | src/parser.cpp:295-353 | every statement form consumes at least one token |
| Parser.ParseArmHead | src/parser.cpp:277-283 | an arm has a condition exactly when it starts with `if`, and an `else` arm consumes nothing before its block |
| Parser.ParseArm | src/parser.cpp:277-286 | an arm has a condition exactly when it starts with `if`, and it ends with its block's `}` |
| Parser.ParseArms | src/parser.cpp:275-290 | the arm loop yields at least one arm and leaves the token after the last block, which is not `else`, unconsumed |
| Parser.ParseConditional | src/parser.cpp:271-293 | a conditional has at least one arm, and the token after it is left unconsumed |
| Conditionals.ChainOfThree | src/parser.cpp:271-293 | `if (a) {} else if (b) {} else {}` yields three arms, conditioned on `a`, on `b` and on nothing, and leaves the token after the last block unconsumed |
| Conditionals.GuardedArm | src/parser.cpp:277-286 | `if (e)` with any printable `e`, then a block, is one arm with condition `e` and the block's statements, ending where the block ends |
| Conditionals.ParenthesisedCondition | src/parser.cpp:483-487 | a parenthesised condition ends at its `)`, so a `{` after it is not taken into it |
| Conditionals.FinalArm | src/parser.cpp:277-286 | a block with no `if` in front of it is an arm without a condition, holding the block's statements |
| Conditionals.ChainParses | src/parser.cpp:275-290 | a chain of `n` arms with an `else` between consecutive arms and none after the last is read as exactly those `n` arms, stopping after the last block |
| Conditionals.ArmsFormChain | src/parser.cpp:275-290 | conversely, every arm list the loop reads is such a chain, with one `else` between each pair of consecutive arms |
| Conditionals.ConditionalReadsChain | src/parser.cpp:271-293 | `parseConditional` on a chain yields a conditional with one arm per link |
| Conditionals.BraceAfterNameIsLiteral | src/parser.cpp:489-496 | in `if a { }` the braces become the empty struct literal `a { }` inside the condition, and without a block after them the conditional is rejected |
| Parser.ParseParams | src/parser.cpp:144-157 | the parameter loop stops on `)` |
| Parser.ParseFunction | src/parser.cpp:128-170 | a function definition records the module of the file it is in |
| Parser.ParseFieldDecls | src/parser.cpp:113-121 | the field loop stops on `}` |
| Parser.ParseStruct | src/parser.cpp:96-126 | a struct definition records the module of the file it is in |
| Parser.ParseGlobal | src/parser.cpp:71-94 | the choice between function and struct depends only on the token three after the identifier (`(` or `struct`); anything else is fatal |
| Imports.Join | src/parser.cpp:54 | an absolute right side replaces the base, and otherwise the result starts with the base and ends with the right side |
| Imports.ParentOfJoin | src/parser.cpp:6 | the parent of a directory joined with a plain file name is that directory |
| Imports.ResolveImportPath | src/parser.cpp:20-36 | a `std:rest` path is rebuilt under the compiler's `std` directory with `.pl` appended, and any other path is returned unchanged, without the suffix |
| Imports.StdTestOnSuffixed | src/parser.cpp:22-25 | testing for `std:` after appending `.pl` gives the same answer as testing before |
| Imports.StdImportPath | src/parser.cpp:20-33 | `std:rest` resolves to `/opt/compiler/std/rest.pl` |
| Imports.ParseFile | src/parser.cpp:657-674 | parsing a file marks it parsed |
| Imports.ParseItems | src/parser.cpp:46-66 | the item loop never unmarks a path |
| Imports.ItemsImportKnown | src/parser.cpp:54-60 | an import whose target is already marked parsed is skipped, and the loop continues after it with nothing else changed |
| Imports.ItemsImportNew | src/parser.cpp:54-58 | an import of an unmarked target marks it and parses it before the loop continues |
| Imports.FileWalk | src/parser.cpp:4-8 | parsing a file that is not yet filed keeps every path filed at most once; it files that file last, appends no file that was already marked, and files every path it newly marks |
| Imports.ItemsWalk | src/parser.cpp:38-69 | the item loop keeps the walk sound, appends only files that were unmarked, files every path it marks, and never files the importing file itself |
| Imports.ImportNested | src/parser.cpp:54-58 | the nested parse of an unmarked import target keeps the walk sound, leaves the importing file unfiled, and files every path it marks, the target included |
| Imports.ParseOnce | src/parser.cpp:54-58 | after a successful walk from the entry file, each reached path is parsed exactly once: no path is filed twice, a path is filed exactly when it was marked parsed, so there are as many files as marked paths, and the entry file is filed last |
| Imports.Paths | src/parser.cpp:54 | the set of paths of a file list holds exactly the filed paths |
| Imports.DistinctPaths | src/parser.cpp:54-58 | files with pairwise distinct paths have as many distinct paths as files |
| Imports.ItemsSymbols | src/parser.cpp:101 | a file's function and struct symbol sets are exactly the names of its function and struct definitions |
| Generator.TypeInfo | src/generator.cpp:15-37 | `typeInfo` copies the pointer level into the depth, and only a builtin name gets a non-null element type |
| Generator.ElementTypeNames | src/generator.cpp:20-31 | exactly `i32`, `void` and `u8` get an element type, and no two of them get the same one |
| Generator.LowerForgetsElement | src/generator.cpp:5-13 | two types of equal depth lower alike exactly when the depth is positive or their element types agree |
| Generator.LowerIsPointer | src/generator.cpp:5-37 | a lowered source type is the opaque pointer exactly when it has a `*`; without one it is the element type of its name |
| Generator.LowerParams | src/generator.cpp:55-58 | the signature has one lowered type per declared parameter, in declaration order |
| Generator.FirstDefinition | src/generator.cpp:47-51 | the reference registration picks a function definition with the given name, and there is none exactly when no node defines that name |
| Generator.FirstDefinitionAppend | src/generator.cpp:51 | a later definition never replaces an earlier one |
| Generator.RegisterStep | src/generator.cpp:47-63 | one loop step registers a function definition exactly when its name is new, and otherwise changes nothing |
| Generator.RegisterNodes | src/generator.cpp:45-64 | one file's loop extends the registration to its nodes |
| Generator.Generate | src/generator.cpp:39-66 | a name is registered exactly when some function defines it, and with the signature of its first definition across all files in order |
| Generator.RegistrationIdempotent | src/generator.cpp:51 | registering the same files a second time changes nothing |
| Generator.AllNodesAppend | src/generator.cpp:43-45 | the files' globals are visited file by file, in order |

## Left out

- **Not modelled:**
  - File reading: `Lexer lex(p)` on a path is replaced by the map `sources` from paths to token vectors. A path outside the map is a file that cannot be read.
  - `std::filesystem::absolute` on the entry path.
  - Path normalisation, such as redundant separators or `..`.
  - Debug output (`print`, `display`, `isParsed`), the stray output in `parseVariableDecl`, and the printing of the LLVM module.
  - `llvm::Function::Create`, the builder and the module: a registered function is represented by its signature.
- **Error handling:**
  - `exit(1)` after a diagnostic is a `Failure` carrying the diagnostic's message. Row and column are left out.
  - Reading `tokens[index]` beyond the vector is undefined behaviour in the program; here it is a `Failure`.
- **Nodes, types and literals:**
  - The AST classes of `ast.cpp` are a datatype. `parsePrimary` and `parseSpecial` returning `nullptr` become the node `Missing`.
  - `Generator.TypeName`: the name that `typeInfo` reads from a struct type is taken to be the struct's own name, and an array type has none. The constructors of `StructType` and `ArrayType` are in `ast.cpp`, which is not part of this model. Under this reading a struct type lowers to the element type of its own name, so to the null element type unless that name is `i32`, `void` or `u8` (as in `m:i32`); an array type lowers to the null element type.
  - The default argument of `parseExpression`: the declaration of `FileParser` in `src/parser.h` lists neither `parseExpression` nor its default precedence, so the header that gives it is not part of this model. Every bare `parseExpression()` call (`src/parser.cpp` lines 236, 241, 265, 282, 329, 373, 393, 485, 526, 546, 576 and 598) is modelled as `Parser.ParseExpression` at level 0. That value is an assumption. It is the only one that fits the operator table of `getPrecedence`: at -1 the loop of `parseExpression` would take a terminator such as `;` or `)` as an operator, and at 1 or more an expression containing a top-level `||` (level 0) would stop before it.
  - `Numbers.StoI` covers an optional sign and the longest run of digits. Leading whitespace, which `std::stoi` also skips, is left out; the lexer never produces it in a literal.
- **Scanner:**
  - `Lexer.Next`: character classes are those of the C locale on ASCII, and the `FilePosition` of tokens is not modelled.
  - The keyword table holds only `fn`. The lexer of `lexer.cpp` produces no other keyword, operator or literal kinds; the parser is therefore modelled on token sequences, not on text.
- **Weaker contracts:**
  - `Imports.ParseItems`: its contract states only that marks are kept. The walk invariants are proved separately in `Imports.ItemsWalk` and `Imports.FileWalk`.
  - `Parser.ParseType`: its contract states only progress. What it builds is stated case by case by `Parser.ParseNamedType` and `Parser.ParseArraySize`, and from a spelling by `RoundTrip.TypeRoundTrip` (builtin names, `m:N` and arrays) and `RoundTrip.BareStructRoundTrip` (a bare struct name).
  - `ExprRoundTrip.ExpressionRoundTrip`: calls and struct literals are always written with an explicit module (`m:f(...)`), so the forms with an implicit module and `m:x` as a variable are outside the round trip; for them `Parser.ParseIdentifierForm` states which module a call or literal records and which name a variable carries, but not the whole tree.
  - `ExprRoundTrip.IntParses`: covers literal tokens whose text is an unsigned decimal up to `INT_MAX`. The spelling grammar writes a negative number with the prefix operator `-`, which `ExprRoundTrip.PrefixParses` covers; what `stoi` reads from signed text is stated by `Numbers.StoINegative`, `Numbers.StoIPlusSign` and `Numbers.StoINegativeOutOfRange`.
  - `Parser.ParseUnary`: its contract states only progress. What it and `Parser.ParseExpression` build is stated by `ExprRoundTrip.ExpressionRoundTrip` and the lemmas under it.

Notes on the parser's behaviour:

- A function signature has no `->`.
- The `;` after a forward declaration is not consumed by `parseFunction`.
- An import without the `std:` prefix gets no `.pl` suffix.
- `module.name(...)` calls with a dot are not in this version.
- An identifier statement followed by none of `( = [ . :` falls into the return case, where `expectConsume` fails.
- `m:x` not followed by `(` or `{` yields the variable `m`.
- A name directly before `{` always starts a struct literal, in conditions too. So in `if a { ... }` the block is read as the fields of a literal `a { ... }`, and `if a {X} else if b {Y} else {Z}` is not read as a chain of three arms: it fails unless `X` happens to read as struct fields followed by a block. A parenthesised condition such as `if (a) {X}` parses as intended.
- A return type must start with an identifier.
- The `]` of an array literal is stepped over unchecked.

=== FILE: ast.dfy ===
/** The syntax tree the parser builds: a closed set of node variants, each
    subtree owned by its parent. */
module Ast {
  import opened Wrappers
  import opened Tokens

  /** Source-level types: a builtin name, a fixed-size array, or a struct
      qualified by its module; each carries the number of leading `*`. */
  datatype TypeExpr =
    | Named(name: string, pointerLevel: nat)
    | ArrayOf(element: TypeExpr, size: int, pointerLevel: nat)
    | StructRef(moduleName: string, name: string, pointerLevel: nat)

  datatype Node =
    // expressions
    | IntLit(value: int)
    | StrLit(text: string)
    | BoolLit(truth: bool)
    | CharLit(ch: char)
    | Var(name: string)
    | Access(name: string, steps: seq<Step>)
    | Binary(op: TokenKind, lhs: Node, rhs: Node)
    | Unary(op: TokenKind, operand: Node)
    | Call(moduleName: string, name: string, args: seq<Node>)
    | StructLit(moduleName: string, name: string, inits: seq<FieldInit>)
    | ArrayLit(elements: seq<Node>)
    | Cast(target: TypeExpr, operand: Node)
      /** The null node the parser yields for a token no primary form starts with. */
    | Missing
    // statements
    | Assignment(lhs: Node, rhs: Node)
    | VarDecl(name: string, declType: TypeExpr, init: Node)
    | Block(body: seq<Node>)
    | Conditional(arms: seq<Arm>)
    | While(condition: Node, body: seq<Node>)
    | Return(result: Node)
    // globals
    | FunctionDef(moduleName: string, name: string, params: seq<Binding>,
                  returnType: TypeExpr, definition: Option<seq<Node>>)
    | StructDef(moduleName: string, name: string, fields: seq<Binding>)

  /** `name : type`, as in a parameter list or a struct declaration. */
  datatype Binding = Binding(name: string, ty: TypeExpr)

  /** `name : value` in a struct literal. */
  datatype FieldInit = FieldInit(field: string, value: Node)

  /** One step of an access path: `[index]` or `.field`. */
  datatype Step = Index(index: Node) | Field(field: string)

  /** One arm of a conditional chain; the condition is absent for `else`. */
  datatype Arm = Arm(condition: Option<Node>, body: seq<Node>)
}

=== FILE: conditionals.dfy ===
/** The conditional chain of `parseConditional` on concrete shapes: one arm
    per `if`/`else` link, and the way a block brace after a bare name is
    taken into the condition. */
module Conditionals {
  import opened Wrappers
  import opened Tokens
  import opened Ast
  import opened Parser
  import opened Spelling
  import ExprRoundTrip

  /** `( e )` before a `{` is the expression `e`: the closing parenthesis
      ends it, so the brace is not taken into it as a struct literal. */
  lemma ParenthesisedCondition(ts: seq<Token>, j: nat, e: Node, m: string)
    requires Printable(e) && Is(ts, j, LeftParen) && SpellsExpr(ts, j + 1, e)
    requires Is(ts, j + 1 + ExprWidth(e), RightParen) && Is(ts, j + 2 + ExprWidth(e), LeftBrace)
    ensures ParseExpression(ts, j, 0, m) == Success(Parsed(e, j + 2 + ExprWidth(e)))
  {
    ExprRoundTrip.ExpressionRoundTrip(ts, j + 1, e, m);
    ExprRoundTrip.UnaryIsPrimary(ts, j, m);
  }

  /** `{ }` is an empty block. */
  lemma EmptyBlock(ts: seq<Token>, j: nat, m: string)
    requires Is(ts, j, LeftBrace) && Is(ts, j + 1, RightBrace)
    ensures ParseBlock(ts, j, m) == Success(Parsed([], j + 2))
  {
    assert ParseStatements(ts, j + 1, m) == Success(Parsed([], j + 1));
  }

  /** `if ( e )` and then a block: an arm with condition `e` and the
      block's statements, ending where the block ends. */
  lemma GuardedArm(ts: seq<Token>, j: nat, e: Node, body: seq<Node>, k: nat, m: string)
    requires Printable(e) && Is(ts, j, KeywordIf) && Is(ts, j + 1, LeftParen) && SpellsExpr(ts, j + 2, e)
    requires Is(ts, j + 2 + ExprWidth(e), RightParen)
    requires ParseBlock(ts, j + 3 + ExprWidth(e), m) == Success(Parsed(body, k))
    ensures ParseArm(ts, j, m) == Success(Parsed(Arm(Some(e), body), k))
  {
    ParenthesisedCondition(ts, j + 1, e, m);
    assert ParseArmHead(ts, j, m) == Success(Parsed(Some(e), j + 3 + ExprWidth(e)));
  }

  /** A block on its own, as after a bare `else`: an arm without a
      condition. */
  lemma FinalArm(ts: seq<Token>, j: nat, body: seq<Node>, k: nat, m: string)
    requires j <= |ts| && ParseBlock(ts, j, m) == Success(Parsed(body, k))
    ensures ParseArm(ts, j, m) == Success(Parsed(Arm(None, body), k))
  {
    assert ParseArmHead(ts, j, m) == Success(Parsed(None, j));
  }

  /** An arm followed by `else` is prepended to the arms after the `else`. */
  lemma ArmThenElse(ts: seq<Token>, j: nat, arm: Arm, k: nat, rest: seq<Arm>, next: nat, m: string)
    requires j <= |ts| && ParseArm(ts, j, m) == Success(Parsed(arm, k)) && Is(ts, k, KeywordElse)
    requires ParseArms(ts, k + 1, m) == Success(Parsed(rest, next))
    ensures ParseArms(ts, j, m) == Success(Parsed([arm] + rest, next))
  {
  }

  /** An arm followed by anything but `else` ends the chain. */
  lemma LastArm(ts: seq<Token>, j: nat, arm: Arm, k: nat, m: string)
    requires j <= |ts| && ParseArm(ts, j, m) == Success(Parsed(arm, k)) && k < |ts| && ts[k].kind != KeywordElse
    ensures ParseArms(ts, j, m) == Success(Parsed([arm], k))
  {
  }

  /** Arm `k` is read from `starts[k]` to `ends[k]`. */
  predicate ArmsRead(ts: seq<Token>, starts: seq<nat>, ends: seq<nat>, arms: seq<Arm>, m: string) {
    |starts| == |arms| && |ends| == |arms| &&
    forall k {:trigger starts[k]} :: 0 <= k < |arms| ==> starts[k] <= |ts| && ParseArm(ts, starts[k], m) == Success(Parsed(arms[k], ends[k]))
  }

  /** An `else` follows every arm but the last, and the next arm starts
      right after it. */
  predicate ArmsLinked(ts: seq<Token>, starts: seq<nat>, ends: seq<nat>) {
    |starts| == |ends| &&
    (forall k :: 0 <= k < |ends| - 1 ==> Is(ts, ends[k], KeywordElse)) &&
    (forall k {:trigger starts[k]} :: 0 < k < |starts| ==> starts[k] == ends[k - 1] + 1)
  }

  /** A chain of arms as `parseConditional` meets it: the arms are read one
      after another with an `else` between consecutive ones, and the token
      after the last arm is not `else`. */
  predicate Chain(ts: seq<Token>, starts: seq<nat>, ends: seq<nat>, arms: seq<Arm>, m: string) {
    |arms| > 0 && ArmsRead(ts, starts, ends, arms, m) && ArmsLinked(ts, starts, ends) &&
    ends[|arms| - 1] < |ts| && ts[ends[|arms| - 1]].kind != KeywordElse
  }

  /** An arm read in front of arms read keeps them read. */
  lemma ArmsReadCons(ts: seq<Token>, i: nat, arm: Arm, k: nat, starts: seq<nat>, ends: seq<nat>, arms: seq<Arm>, m: string)
    requires i <= |ts| && ParseArm(ts, i, m) == Success(Parsed(arm, k)) && ArmsRead(ts, starts, ends, arms, m)
    ensures ArmsRead(ts, [i] + starts, [k] + ends, [arm] + arms, m)
  {
    var s, e, a := [i] + starts, [k] + ends, [arm] + arms;
    forall n | 0 <= n < |a|
      ensures s[n] <= |ts| && ParseArm(ts, s[n], m) == Success(Parsed(a[n], e[n]))
    {
      if n == 0 {
        assert s[n] == i && e[n] == k && a[n] == arm;
      } else {
        assert s[n] == starts[n - 1] && e[n] == ends[n - 1] && a[n] == arms[n - 1];
      }
    }
  }

  /** An arm ending at an `else` in front of linked arms keeps them linked. */
  lemma ArmsLinkedCons(ts: seq<Token>, i: nat, k: nat, starts: seq<nat>, ends: seq<nat>)
    requires Is(ts, k, KeywordElse) && ArmsLinked(ts, starts, ends) && |starts| > 0 && starts[0] == k + 1
    ensures ArmsLinked(ts, [i] + starts, [k] + ends)
  {
    var s, e := [i] + starts, [k] + ends;
    forall n | 0 <= n < |e| - 1
      ensures Is(ts, e[n], KeywordElse)
    {
      if n > 0 {
        assert e[n] == ends[n - 1];
      }
    }
    forall n | 0 < n < |s|
      ensures s[n] == e[n - 1] + 1
    {
      if n == 1 {
        assert e[0] == k && s[1] == starts[0];
      } else {
        assert e[n - 1] == ends[n - 2] && s[n] == starts[n - 1];
      }
    }
  }

  /** A chain with an arm put in front, separated by `else`, is a chain. */
  lemma ChainCons(ts: seq<Token>, i: nat, arm: Arm, k: nat, starts: seq<nat>, ends: seq<nat>, arms: seq<Arm>, m: string)
    requires i <= |ts| && ParseArm(ts, i, m) == Success(Parsed(arm, k)) && Is(ts, k, KeywordElse)
    requires Chain(ts, starts, ends, arms, m) && starts[0] == k + 1
    ensures Chain(ts, [i] + starts, [k] + ends, [arm] + arms, m)
  {
    ArmsReadCons(ts, i, arm, k, starts, ends, arms, m);
    ArmsLinkedCons(ts, i, k, starts, ends);
    assert ([k] + ends)[|arms|] == ends[|arms| - 1];
  }

  /** The arms of a chain from the `j`-th on are read back as exactly those
      arms, ending where the last arm ends. */
  lemma {:induction false} ChainSuffixParses(ts: seq<Token>, starts: seq<nat>, ends: seq<nat>, arms: seq<Arm>, j: nat, m: string)
    requires Chain(ts, starts, ends, arms, m) && j < |arms|
    ensures ParseArms(ts, starts[j], m) == Success(Parsed(arms[j..], ends[|arms| - 1]))
    decreases |arms| - j
  {
    if j == |arms| - 1 {
      LastArm(ts, starts[j], arms[j], ends[j], m);
      assert arms[j..] == [arms[j]];
    } else {
      ChainSuffixParses(ts, starts, ends, arms, j + 1, m);
      ArmThenElse(ts, starts[j], arms[j], ends[j], arms[j + 1..], ends[|arms| - 1], m);
      assert arms[j..] == [arms[j]] + arms[j + 1..];
    }
  }

  /** Every chain of `n` arms separated by `n - 1` `else` tokens is read
      back as exactly those arms, ending where the last arm ends. */
  lemma ChainParses(ts: seq<Token>, starts: seq<nat>, ends: seq<nat>, arms: seq<Arm>, m: string)
    requires Chain(ts, starts, ends, arms, m)
    ensures ParseArms(ts, starts[0], m) == Success(Parsed(arms, ends[|arms| - 1]))
  {
    ChainSuffixParses(ts, starts, ends, arms, 0, m);
    assert arms[0..] == arms;
  }

  /** So `parseConditional` on such a chain yields a conditional with one arm
      per link. */
  lemma ConditionalReadsChain(ts: seq<Token>, starts: seq<nat>, ends: seq<nat>, arms: seq<Arm>, m: string)
    requires Chain(ts, starts, ends, arms, m)
    ensures ParseConditional(ts, starts[0], m) == Success(Parsed(Conditional(arms), ends[|arms| - 1]))
  {
    ChainParses(ts, starts, ends, arms, m);
  }

  /** Conversely, whatever `parseConditional`'s loop reads is such a chain:
      one arm per link, with one `else` between consecutive arms. */
  lemma {:induction false} ArmsFormChain(ts: seq<Token>, i: nat, m: string)
    requires i <= |ts| && ParseArms(ts, i, m).Success?
    ensures exists starts, ends ::
      (Chain(ts, starts, ends, ParseArms(ts, i, m).value.item, m) && starts[0] == i && ends[|ends| - 1] == ParseArms(ts, i, m).value.next)
    decreases |ts| - i
  {
    var arm := ParseArm(ts, i, m).value;
    var r := ParseArms(ts, i, m).value;
    if ts[arm.next].kind == KeywordElse {
      var rest := ParseArms(ts, arm.next + 1, m).value;
      ArmsFormChain(ts, arm.next + 1, m);
      var starts, ends :| Chain(ts, starts, ends, rest.item, m) && starts[0] == arm.next + 1 && ends[|ends| - 1] == rest.next;
      ChainCons(ts, i, arm.item, arm.next, starts, ends, rest.item, m);
      assert r.item == [arm.item] + rest.item;
      assert ([arm.next] + ends)[|ends|] == rest.next;
    } else {
      assert Chain(ts, [i], [arm.next], r.item, m);
    }
  }

  function ThreeArms(): seq<Token> {
    [ Tok(KeywordIf), Tok(LeftParen), Ident("a"), Tok(RightParen), Tok(LeftBrace), Tok(RightBrace), Tok(KeywordElse),
      Tok(KeywordIf), Tok(LeftParen), Ident("b"), Tok(RightParen), Tok(LeftBrace), Tok(RightBrace), Tok(KeywordElse),
      Tok(LeftBrace), Tok(RightBrace), Tok(Semicolon) ]
  }

  /** Where each token of the chain below sits: the first link... */
  lemma ThreeArmsHead(ts: seq<Token>)
    requires ts == ThreeArms()
    ensures Is(ts, 0, KeywordIf) && Is(ts, 1, LeftParen) && Has(ts, 2, Ident("a")) && Is(ts, 3, RightParen)
    ensures Is(ts, 4, LeftBrace) && Is(ts, 5, RightBrace) && Is(ts, 6, KeywordElse)
  {
  }

  /** ... and the rest. */
  lemma ThreeArmsTail(ts: seq<Token>)
    requires ts == ThreeArms()
    ensures |ts| == 17 && ts[16].kind != KeywordElse
    ensures Is(ts, 7, KeywordIf) && Is(ts, 8, LeftParen) && Has(ts, 9, Ident("b")) && Is(ts, 10, RightParen)
    ensures Is(ts, 11, LeftBrace) && Is(ts, 12, RightBrace) && Is(ts, 13, KeywordElse)
    ensures Is(ts, 14, LeftBrace) && Is(ts, 15, RightBrace)
  {
  }

  /** `if (a) {} else if (b) {} else {} ;` has three arms, one per link of
      the chain: two with conditions and a final one without. The `;` after
      the last block is left unconsumed. */
  lemma ChainOfThree(m: string)
    ensures ParseConditional(ThreeArms(), 0, m)
         == Success(Parsed(Conditional([Arm(Some(Var("a")), []), Arm(Some(Var("b")), []), Arm(None, [])]), 16))
  {
    var ts := ThreeArms();
    ThreeArmsHead(ts);
    ThreeArmsTail(ts);
    var last := Arm(None, []);
    var second := Arm(Some(Var("b")), []);
    var first := Arm(Some(Var("a")), []);
    EmptyBlock(ts, 14, m);
    FinalArm(ts, 14, [], 16, m);
    LastArm(ts, 14, last, 16, m);
    EmptyBlock(ts, 11, m);
    GuardedArm(ts, 7, Var("b"), [], 13, m);
    ArmThenElse(ts, 7, second, 13, [last], 16, m);
    EmptyBlock(ts, 4, m);
    GuardedArm(ts, 0, Var("a"), [], 6, m);
    ArmThenElse(ts, 0, first, 6, [second] + [last], 16, m);
    assert [first] + ([second] + [last]) == [first, second, last];
  }

  /** A bare name right before a `{` begins a struct literal, so in
      `if a { }` the braces are taken into the condition as the empty
      literal `a { }`, and the block has to follow it. When it does not,
      the conditional is rejected. */
  lemma BraceAfterNameIsLiteral(ts: seq<Token>, i: nat, name: string, m: string)
    requires Is(ts, i, KeywordIf) && Has(ts, i + 1, Ident(name)) && Is(ts, i + 2, LeftBrace) && Is(ts, i + 3, RightBrace)
    requires i + 4 < |ts| && Prec(ts[i + 4].kind) < 0
    ensures ParseArmHead(ts, i, m) == Success(Parsed(Some(StructLit(m, name, [])), i + 4))
    ensures ts[i + 4].kind != LeftBrace ==> ParseConditional(ts, i, m).Failure?
  {
    assert ParseFieldInits(ts, i + 3, m) == Success(Parsed([], i + 3));
    assert ParseStructLiteral(ts, i + 1, m, m) == Success(Parsed(StructLit(m, name, []), i + 4));
    ExprRoundTrip.PrimaryIsIdentifierForm(ts, i + 1, m);
    assert ParseExpression(ts, i + 1, 0, m) == Success(Parsed(StructLit(m, name, []), i + 4));
    if ts[i + 4].kind != LeftBrace {
      assert ParseBlock(ts, i + 4, m).Failure?;
      assert ParseArm(ts, i, m).Failure?;
    }
  }
}

=== FILE: expr_roundtrip.dfy ===
/** `parseExpression` reads back every printable expression from its
    spelling: precedence climbing with left associativity rebuilds exactly
    the tree the grammar of `Spelling` wrote with the fewest parentheses the
    operator table allows, and stops right after it.

    The proof is one mutual induction over the tree. `LeftClimb` is the
    heart of it: the tokens of an operand followed by an operator parse to
    that operand and hand the operator to the climbing loop. */
module ExprRoundTrip {
  import opened Wrappers
  import opened Tokens
  import opened Ast
  import opened Parser
  import opened Spelling
  import RoundTrip
  import Numbers

  /** 1 when `e` is written in parentheses at level `p`: the measure that
      lets the inside of parentheses be read again at level 0. */
  function Parens(e: Node, p: int): nat {
    if NeedsParens(e, p) then 1 else 0
  }

  /** The kinds a written expression can start with. */
  predicate Opens(kind: TokenKind) {
    || kind == IntLiteral || kind == StringLiteral || kind == BoolLiteral || kind == CharLiteral
    || kind == Identifier || kind == LeftParen || kind == At || kind == LeftSquareBracket
    || IsPrefixOperator(kind)
  }

  /** A written expression starts with a token that opens one; in
      particular not with `)`, `,`, `]` or `}`. */
  lemma {:induction false} FirstToken(ts: seq<Token>, i: nat, e: Node, s: int)
    requires Printable(e) && SpellsOperand(ts, i, e, s)
    ensures i < |ts| && Opens(ts[i].kind)
    decreases e
  {
    if !NeedsParens(e, s) && e.Binary? {
      FirstToken(ts, i, e.lhs, Prec(e.op));
    }
  }

  // ---------------------------------------------------------------------
  // The climbing loop

  /** The spelling of `e` at level `p`, followed by a token that ends it,
      parses to `e` at level `p`. */
  lemma {:induction false} ExprParses(ts: seq<Token>, i: nat, e: Node, p: int, end: nat, m: string)
    requires Printable(e) && SpellsOperand(ts, i, e, p) && end == i + Width(e, p)
    requires Ends(ts, end, p)
    ensures ParseExpression(ts, i, p, m) == Success(Parsed(e, end))
    decreases e, Parens(e, p), 3
  {
    LeftClimb(ts, i, e, p, p, end, m);
  }

  /** An operand written at level `s` and followed by a token that binds no
      tighter than its own operator parses, at any level `p <= s`, to the
      operand, leaving the climbing loop in front of that token. */
  lemma {:induction false} LeftClimb(ts: seq<Token>, i: nat, e: Node, s: int, p: int, end: nat, m: string)
    requires Printable(e) && SpellsOperand(ts, i, e, s) && end == i + Width(e, s) && p <= s
    requires end < |ts| && Stops(ts[end].kind)
    requires e.Binary? && s <= Prec(e.op) ==> Prec(ts[end].kind) <= Prec(e.op)
    ensures ParseExpression(ts, i, p, m) == Climb(ts, end, p, e, m)
    decreases e, Parens(e, s), 2
  {
    if e.Binary? && s <= Prec(e.op) {
      BinaryClimb(ts, i, e, s, p, end, m);
    } else {
      UnaryParses(ts, i, e, s, end, m);
    }
  }

  /** `l op r` without parentheses: the left operand climbs up to `op`,
      the loop consumes `op` and reads `r` one level tighter. */
  lemma {:induction false} BinaryClimb(ts: seq<Token>, i: nat, e: Node, s: int, p: int, end: nat, m: string)
    requires e.Binary? && Printable(e) && p <= s <= Prec(e.op)
    requires SpellsOperand(ts, i, e, s) && end == i + Width(e, s)
    requires end < |ts| && Stops(ts[end].kind) && Prec(ts[end].kind) <= Prec(e.op)
    ensures ParseExpression(ts, i, p, m) == Climb(ts, end, p, e, m)
    decreases e, 0, 1
  {
    var q := Prec(e.op);
    var k := i + Width(e.lhs, q);
    assert SpellsOperand(ts, i, e.lhs, q) && Is(ts, k, e.op) && SpellsOperand(ts, k + 1, e.rhs, q + 1);
    LeftClimb(ts, i, e.lhs, q, p, k, m);
    ExprParses(ts, k + 1, e.rhs, q + 1, end, m);
    ClimbStep(ts, k, p, e.lhs, e.rhs, end, m);
  }

  /** One round of the loop: the operator under the cursor binds at least
      `p`, and the right operand reads to `end`. */
  lemma ClimbStep(ts: seq<Token>, k: nat, p: int, l: Node, r: Node, end: nat, m: string)
    requires k < |ts| && p <= Prec(ts[k].kind)
    requires k + 1 <= |ts| && ParseExpression(ts, k + 1, Prec(ts[k].kind) + 1, m) == Success(Parsed(r, end))
    ensures Climb(ts, k, p, l, m) == Climb(ts, end, p, Binary(ts[k].kind, l, r), m)
  {
  }

  // ---------------------------------------------------------------------
  // Unary operands

  /** An operand that is not a bare binary expression is read by
      `parseUnary`. */
  lemma {:induction false} UnaryParses(ts: seq<Token>, i: nat, e: Node, s: int, end: nat, m: string)
    requires Printable(e) && SpellsOperand(ts, i, e, s) && end == i + Width(e, s)
    requires !(e.Binary? && s <= Prec(e.op))
    requires end < |ts| && Stops(ts[end].kind)
    ensures ParseUnary(ts, i, m) == Success(Parsed(e, end))
    decreases e, Parens(e, s), 1
  {
    if e.Binary? {
      ParenParses(ts, i, e, s, end, m);
    } else if e.Unary? {
      PrefixParses(ts, i, e, s, end, m);
    } else {
      PrimaryParses(ts, i, e, end, m);
    }
  }

  /** `( e )`: the inside is read at level 0 and the `)` is consumed. */
  lemma {:induction false} ParenParses(ts: seq<Token>, i: nat, e: Node, s: int, end: nat, m: string)
    requires e.Binary? && Printable(e) && Prec(e.op) < s
    requires SpellsOperand(ts, i, e, s) && end == i + Width(e, s)
    ensures ParseUnary(ts, i, m) == Success(Parsed(e, end))
    decreases e, 1, 0
  {
    var inner := i + 1 + ExprWidth(e);
    assert Is(ts, i, LeftParen) && SpellsExpr(ts, i + 1, e) && Is(ts, inner, RightParen);
    ExprParses(ts, i + 1, e, 0, inner, m);
  }

  /** A prefix operator wraps the unary operand written after it. */
  lemma {:induction false} PrefixParses(ts: seq<Token>, i: nat, e: Node, s: int, end: nat, m: string)
    requires e.Unary? && Printable(e) && SpellsOperand(ts, i, e, s) && end == i + Width(e, s)
    requires end < |ts| && Stops(ts[end].kind)
    ensures ParseUnary(ts, i, m) == Success(Parsed(e, end))
    decreases e, 0, 0
  {
    assert Is(ts, i, e.op) && SpellsOperand(ts, i + 1, e.operand, 6);
    UnaryParses(ts, i + 1, e.operand, 6, end, m);
  }

  // ---------------------------------------------------------------------
  // Primary forms

  lemma {:induction false} PrimaryParses(ts: seq<Token>, i: nat, e: Node, end: nat, m: string)
    requires !e.Binary? && !e.Unary? && Printable(e) && SpellsExpr(ts, i, e) && end == i + ExprWidth(e)
    requires end < |ts| && Stops(ts[end].kind)
    ensures ParseUnary(ts, i, m) == Success(Parsed(e, end))
    decreases e, 0, 0
  {
    match e
    case IntLit(v) => IntParses(ts, i, v, m);
    case StrLit(_) =>
    case BoolLit(_) =>
    case CharLit(_) =>
    case Var(name) => VarParses(ts, i, name, m);
    case Access(name, steps) => AccessParses(ts, i, name, steps, end, m);
    case Call(mod, name, args) => CallParses(ts, i, mod, name, args, end, m);
    case StructLit(mod, name, inits) => StructLitParses(ts, i, mod, name, inits, end, m);
    case ArrayLit(elements) => ArrayLitParses(ts, i, elements, end, m);
    case Cast(target, operand) => CastParses(ts, i, target, operand, end, m);
  }

  lemma IntParses(ts: seq<Token>, i: nat, v: int, m: string)
    requires 0 <= v <= Numbers.IntMax && Has(ts, i, Token(IntLiteral, Decimal(v)))
    ensures ParseUnary(ts, i, m) == Success(Parsed(IntLit(v), i + 1))
  {
    Numbers.StoINatToString(v);
  }

  /** Outside a prefix operator `parseUnary` is `parsePrimary`. */
  lemma UnaryIsPrimary(ts: seq<Token>, i: nat, m: string)
    requires i < |ts| && !IsPrefixOperator(ts[i].kind)
    ensures ParseUnary(ts, i, m) == ParsePrimary(ts, i, m)
  {
  }

  /** On a name `parsePrimary` goes to the identifier forms. */
  lemma PrimaryIsIdentifierForm(ts: seq<Token>, i: nat, m: string)
    requires Is(ts, i, Identifier)
    ensures ParseUnary(ts, i, m) == ParseIdentifierForm(ts, i, m)
  {
    UnaryIsPrimary(ts, i, m);
  }

  /** A name followed by a token that continues no primary form is a
      variable. */
  lemma VarParses(ts: seq<Token>, i: nat, name: string, m: string)
    requires Has(ts, i, Ident(name)) && i + 1 < |ts| && Stops(ts[i + 1].kind)
    ensures ParseUnary(ts, i, m) == Success(Parsed(Var(name), i + 1))
  {
    PrimaryIsIdentifierForm(ts, i, m);
    assert ParseSteps(ts, i + 1, m) == Success(Parsed([], i + 1));
    assert AccessPath(ts, i + 1, name, m) == Success(Parsed(Var(name), i + 1));
  }

  /** A name and its steps form an access path. */
  lemma {:induction false} AccessParses(ts: seq<Token>, i: nat, name: string, steps: seq<Step>, end: nat, m: string)
    requires |steps| > 0 && (forall k :: 0 <= k < |steps| ==> StepPrintable(steps[k]))
    requires Has(ts, i, Ident(name)) && SpellsSteps(ts, i + 1, steps) && end == i + 1 + StepsWidth(steps)
    requires end < |ts| && Stops(ts[end].kind)
    ensures ParseUnary(ts, i, m) == Success(Parsed(Access(name, steps), end))
    decreases steps, 2
  {
    assert Is(ts, i + 1, LeftSquareBracket) || Is(ts, i + 1, Dot);
    PrimaryIsIdentifierForm(ts, i, m);
    StepsParse(ts, i + 1, steps, end, m);
    assert AccessPath(ts, i + 1, name, m) == Success(Parsed(Access(name, steps), end));
  }

  /** The step loop reads every written step and stops at `end`. */
  lemma {:induction false} StepsParse(ts: seq<Token>, j: nat, steps: seq<Step>, end: nat, m: string)
    requires forall k :: 0 <= k < |steps| ==> StepPrintable(steps[k])
    requires SpellsSteps(ts, j, steps) && end == j + StepsWidth(steps)
    requires end < |ts| && Stops(ts[end].kind)
    ensures ParseSteps(ts, j, m) == Success(Parsed(steps, end))
    decreases steps, 1
  {
    if steps != [] {
      var next := j + StepWidth(steps[0]);
      StepsParse(ts, next, steps[1..], end, m);
      StepParses(ts, j, steps[0], next, steps[1..], end, m);
      assert [steps[0]] + steps[1..] == steps;
    }
  }

  /** One `[index]` or `.field` step, then the steps after it. */
  lemma {:induction false} StepParses(ts: seq<Token>, j: nat, step: Step, next: nat, rest: seq<Step>, end: nat, m: string)
    requires StepPrintable(step) && SpellsStep(ts, j, step) && next == j + StepWidth(step)
    requires next <= |ts| && ParseSteps(ts, next, m) == Success(Parsed(rest, end))
    ensures ParseSteps(ts, j, m) == Success(Parsed([step] + rest, end))
    decreases step, 0
  {
    match step
    case Index(x) =>
      ExprParses(ts, j + 1, x, 0, j + 1 + Width(x, 0), m);
      IndexStep(ts, j, x, next, rest, end, m);
    case Field(f) =>
      FieldStep(ts, j, f, rest, end, m);
  }

  lemma IndexStep(ts: seq<Token>, j: nat, x: Node, next: nat, rest: seq<Step>, end: nat, m: string)
    requires Is(ts, j, LeftSquareBracket) && next == j + 1 + Width(x, 0) + 1 && Is(ts, next - 1, RightSquareBracket)
    requires ParseExpression(ts, j + 1, 0, m) == Success(Parsed(x, next - 1))
    requires next <= |ts| && ParseSteps(ts, next, m) == Success(Parsed(rest, end))
    ensures ParseSteps(ts, j, m) == Success(Parsed([Index(x)] + rest, end))
  {
  }

  lemma FieldStep(ts: seq<Token>, j: nat, f: string, rest: seq<Step>, end: nat, m: string)
    requires Is(ts, j, Dot) && Has(ts, j + 1, Ident(f))
    requires ParseSteps(ts, j + 2, m) == Success(Parsed(rest, end))
    ensures ParseSteps(ts, j, m) == Success(Parsed([Field(f)] + rest, end))
  {
  }

  /** `m : name ( args )`: a call of `name` in module `m`. */
  lemma {:induction false} CallParses(ts: seq<Token>, i: nat, mod: string, name: string, args: seq<Node>, end: nat, m: string)
    requires forall k :: 0 <= k < |args| ==> Printable(args[k])
    requires SpellsExpr(ts, i, Call(mod, name, args)) && end == i + 5 + ListWidth(args)
    ensures ParseUnary(ts, i, m) == Success(Parsed(Call(mod, name, args), end))
    decreases args, 1
  {
    var close := i + 4 + ListWidth(args);
    assert Has(ts, i, Ident(mod)) && Is(ts, i + 1, Colon) && Has(ts, i + 2, Ident(name)) && Is(ts, i + 3, LeftParen);
    assert SpellsList(ts, i + 4, args) && Is(ts, close, RightParen);
    ArgsParse(ts, i + 4, args, close, m);
    PrimaryIsIdentifierForm(ts, i, m);
    assert ParseFunctionCall(ts, i + 2, mod, m) == Success(Parsed(Call(mod, name, args), end));
  }

  /** The argument loop reads each argument and skips the comma after it. */
  lemma {:induction false} ArgsParse(ts: seq<Token>, j: nat, args: seq<Node>, close: nat, m: string)
    requires forall k :: 0 <= k < |args| ==> Printable(args[k])
    requires SpellsList(ts, j, args) && close == j + ListWidth(args) && Is(ts, close, RightParen)
    ensures ParseArguments(ts, j, m) == Success(Parsed(args, close))
    decreases args, 0
  {
    if args != [] {
      var a := args[0];
      var c := j + Width(a, 0);
      FirstToken(ts, j, a, 0);
      ExprParses(ts, j, a, 0, c, m);
      ArgsParse(ts, c + 1, args[1..], close, m);
      ArgStep(ts, j, a, c, args[1..], close, m);
      assert [a] + args[1..] == args;
    }
  }

  lemma ArgStep(ts: seq<Token>, j: nat, a: Node, c: nat, rest: seq<Node>, close: nat, m: string)
    requires j < |ts| && ts[j].kind != RightParen && ts[j].kind != Comma
    requires ParseExpression(ts, j, 0, m) == Success(Parsed(a, c)) && Is(ts, c, Comma)
    requires ParseArguments(ts, c + 1, m) == Success(Parsed(rest, close))
    ensures ParseArguments(ts, j, m) == Success(Parsed([a] + rest, close))
  {
  }

  /** `m : name { f : v , ... }`: a literal of struct `name` of module `m`. */
  lemma {:induction false} StructLitParses(ts: seq<Token>, i: nat, mod: string, name: string, inits: seq<FieldInit>, end: nat, m: string)
    requires forall k :: 0 <= k < |inits| ==> Printable(inits[k].value)
    requires SpellsExpr(ts, i, StructLit(mod, name, inits)) && end == i + 5 + InitsWidth(inits)
    ensures ParseUnary(ts, i, m) == Success(Parsed(StructLit(mod, name, inits), end))
    decreases inits, 3
  {
    var close := i + 4 + InitsWidth(inits);
    assert Has(ts, i, Ident(mod)) && Is(ts, i + 1, Colon) && Has(ts, i + 2, Ident(name)) && Is(ts, i + 3, LeftBrace);
    assert SpellsInits(ts, i + 4, inits) && Is(ts, close, RightBrace);
    InitsParse(ts, i + 4, inits, close, m);
    PrimaryIsIdentifierForm(ts, i, m);
    assert ParseStructLiteral(ts, i + 2, mod, m) == Success(Parsed(StructLit(mod, name, inits), end));
  }

  /** The field loop reads `f : v` and the comma after each. */
  lemma {:induction false} InitsParse(ts: seq<Token>, j: nat, inits: seq<FieldInit>, close: nat, m: string)
    requires forall k :: 0 <= k < |inits| ==> Printable(inits[k].value)
    requires SpellsInits(ts, j, inits) && close == j + InitsWidth(inits) && Is(ts, close, RightBrace)
    ensures ParseFieldInits(ts, j, m) == Success(Parsed(inits, close))
    decreases inits, 2
  {
    if inits == [] {
      assert ParseFieldInits(ts, j, m) == Success(Parsed([], j));
    } else {
      FirstInitParses(ts, j, inits, close, m);
    }
  }

  /** A non-empty field list: the first field, its comma, then the rest. */
  lemma {:induction false} FirstInitParses(ts: seq<Token>, j: nat, inits: seq<FieldInit>, close: nat, m: string)
    requires inits != [] && forall k :: 0 <= k < |inits| ==> Printable(inits[k].value)
    requires SpellsInits(ts, j, inits) && close == j + InitsWidth(inits) && Is(ts, close, RightBrace)
    ensures ParseFieldInits(ts, j, m) == Success(Parsed(inits, close))
    decreases inits, 1
  {
    var k := j + 2 + Width(inits[0].value, 0);
    var rest := inits[1..];
    assert inits == [inits[0]] + rest;
    InitSpelling(ts, j, inits, close);
    InitValueParses(ts, j, inits[0].value, k, m);
    assert forall n :: 0 <= n < |rest| ==> rest[n] == inits[n + 1];
    InitsParse(ts, k + 1, rest, close, m);
    InitStep(ts, j, inits[0], k, rest, close, m);
  }

  /** The value of a field, followed by its comma. */
  lemma {:induction false} InitValueParses(ts: seq<Token>, j: nat, v: Node, k: nat, m: string)
    requires Printable(v) && SpellsOperand(ts, j + 2, v, 0) && k == j + 2 + Width(v, 0) && Is(ts, k, Comma)
    ensures ParseExpression(ts, j + 2, 0, m) == Success(Parsed(v, k))
    decreases v, Parens(v, 0), 4
  {
    assert Ends(ts, k, 0);
    ExprParses(ts, j + 2, v, 0, k, m);
  }

  /** Where the spelling of a field list puts its first field. */
  lemma InitSpelling(ts: seq<Token>, j: nat, inits: seq<FieldInit>, close: nat)
    requires inits != [] && SpellsInits(ts, j, inits) && close == j + InitsWidth(inits)
    ensures var k := j + 2 + Width(inits[0].value, 0);
      Has(ts, j, Ident(inits[0].field)) && Is(ts, j + 1, Colon) && SpellsOperand(ts, j + 2, inits[0].value, 0) &&
      Is(ts, k, Comma) && SpellsInits(ts, k + 1, inits[1..]) && close == k + 1 + InitsWidth(inits[1..])
  {
  }

  lemma InitStep(ts: seq<Token>, j: nat, init: FieldInit, k: nat, rest: seq<FieldInit>, close: nat, m: string)
    requires Has(ts, j, Ident(init.field)) && Is(ts, j + 1, Colon)
    requires ParseExpression(ts, j + 2, 0, m) == Success(Parsed(init.value, k)) && Is(ts, k, Comma)
    requires ParseFieldInits(ts, k + 1, m) == Success(Parsed(rest, close))
    ensures ParseFieldInits(ts, j, m) == Success(Parsed([init] + rest, close))
  {
  }

  /** `[ e , ... ]`: an array literal. */
  lemma {:induction false} ArrayLitParses(ts: seq<Token>, i: nat, elements: seq<Node>, end: nat, m: string)
    requires |elements| > 0 && forall k :: 0 <= k < |elements| ==> Printable(elements[k])
    requires SpellsExpr(ts, i, ArrayLit(elements)) && end == i + 2 + ListWidth(elements)
    ensures ParseUnary(ts, i, m) == Success(Parsed(ArrayLit(elements), end))
    decreases elements, 1
  {
    var close := i + 1 + ListWidth(elements);
    assert Is(ts, i, LeftSquareBracket) && SpellsList(ts, i + 1, elements) && Is(ts, close, RightSquareBracket);
    ElementsParse(ts, i + 1, elements, close, m);
  }

  /** The element loop reads each element and the comma after it, and
      stops in front of `]`. */
  lemma {:induction false} ElementsParse(ts: seq<Token>, j: nat, es: seq<Node>, close: nat, m: string)
    requires |es| > 0 && forall k :: 0 <= k < |es| ==> Printable(es[k])
    requires SpellsList(ts, j, es) && close == j + ListWidth(es) && Is(ts, close, RightSquareBracket)
    ensures ParseArrayElements(ts, j, m) == Success(Parsed(es, close))
    decreases es, 0
  {
    var a := es[0];
    var c := j + Width(a, 0);
    ExprParses(ts, j, a, 0, c, m);
    if |es| == 1 {
      LastElement(ts, j, a, c, m);
      assert es == [a];
    } else {
      FirstToken(ts, c + 1, es[1], 0);
      ElementsParse(ts, c + 1, es[1..], close, m);
      ElementStep(ts, j, a, c, es[1..], close, m);
      assert [a] + es[1..] == es;
    }
  }

  lemma LastElement(ts: seq<Token>, j: nat, a: Node, c: nat, m: string)
    requires j <= |ts| && ParseExpression(ts, j, 0, m) == Success(Parsed(a, c))
    requires Is(ts, c, Comma) && Is(ts, c + 1, RightSquareBracket)
    ensures ParseArrayElements(ts, j, m) == Success(Parsed([a], c + 1))
  {
  }

  lemma ElementStep(ts: seq<Token>, j: nat, a: Node, c: nat, rest: seq<Node>, close: nat, m: string)
    requires j <= |ts| && ParseExpression(ts, j, 0, m) == Success(Parsed(a, c))
    requires Is(ts, c, Comma) && c + 1 < |ts| && ts[c + 1].kind != RightSquareBracket
    requires ParseArrayElements(ts, c + 1, m) == Success(Parsed(rest, close))
    ensures ParseArrayElements(ts, j, m) == Success(Parsed([a] + rest, close))
  {
  }

  /** `@ cast ( type , operand )`. */
  lemma {:induction false} CastParses(ts: seq<Token>, i: nat, target: TypeExpr, operand: Node, end: nat, m: string)
    requires TypePrintable(target) && Printable(operand)
    requires SpellsExpr(ts, i, Cast(target, operand)) && end == i + 5 + TypeWidth(target) + Width(operand, 0)
    ensures ParseUnary(ts, i, m) == Success(Parsed(Cast(target, operand), end))
    decreases operand, 1
  {
    var k := i + 3 + TypeWidth(target);
    var close := k + 1 + Width(operand, 0);
    CastSpelling(ts, i, target, operand);
    RoundTrip.TypeRoundTrip(ts, i + 3, target, m);
    assert ParseExpression(ts, k + 1, 0, m) == Success(Parsed(operand, close)) by {
      assert Ends(ts, close, 0);
      ExprParses(ts, k + 1, operand, 0, close, m);
    }
    CastStep(ts, i, target, operand, k, close, m);
  }

  /** What the spelling of a cast puts where. */
  lemma CastSpelling(ts: seq<Token>, i: nat, target: TypeExpr, operand: Node)
    requires SpellsExpr(ts, i, Cast(target, operand))
    ensures var k := i + 3 + TypeWidth(target); var close := k + 1 + Width(operand, 0);
      Is(ts, i, At) && Has(ts, i + 1, Ident("cast")) && Is(ts, i + 2, LeftParen) && SpellsType(ts, i + 3, target) &&
      Is(ts, k, Comma) && SpellsOperand(ts, k + 1, operand, 0) && Is(ts, close, RightParen)
  {
  }

  lemma CastStep(ts: seq<Token>, i: nat, target: TypeExpr, operand: Node, k: nat, close: nat, m: string)
    requires Is(ts, i, At) && Has(ts, i + 1, Ident("cast")) && Is(ts, i + 2, LeftParen)
    requires ParseType(ts, i + 3, m) == Success(Parsed(target, k)) && Is(ts, k, Comma)
    requires ParseExpression(ts, k + 1, 0, m) == Success(Parsed(operand, close)) && Is(ts, close, RightParen)
    ensures ParseUnary(ts, i, m) == Success(Parsed(Cast(target, operand), close + 1))
  {
    UnaryIsPrimary(ts, i, m);
  }

  // ---------------------------------------------------------------------
  // Consequences

  /** Every printable expression parses back from its spelling at level 0
      when the token after it ends an expression. */
  lemma ExpressionRoundTrip(ts: seq<Token>, i: nat, e: Node, m: string)
    requires Printable(e) && SpellsExpr(ts, i, e) && Ends(ts, i + ExprWidth(e), 0)
    ensures ParseExpression(ts, i, 0, m) == Success(Parsed(e, i + ExprWidth(e)))
  {
    ExprParses(ts, i, e, 0, i + ExprWidth(e), m);
  }

  /** The spelling is unambiguous: two printable expressions written at the
      same place and both ended there are the same expression. */
  lemma SpellingUnambiguous(ts: seq<Token>, i: nat, e1: Node, e2: Node)
    requires Printable(e1) && SpellsExpr(ts, i, e1) && Ends(ts, i + ExprWidth(e1), 0)
    requires Printable(e2) && SpellsExpr(ts, i, e2) && Ends(ts, i + ExprWidth(e2), 0)
    ensures e1 == e2
  {
    ExpressionRoundTrip(ts, i, e1, "");
    ExpressionRoundTrip(ts, i, e2, "");
  }

  // ---------------------------------------------------------------------
  // Instances: precedence, associativity, parentheses, prefix operators

  function V(name: string): Node {
    Var(name)
  }

  /** The instances below are all written at position 0 and end at a `;`. */
  predicate Written(ts: seq<Token>, e: Node, width: nat) {
    Printable(e) && SpellsExpr(ts, 0, e) && ExprWidth(e) == width && Ends(ts, width, 0)
  }

  function Int(text: string): Token {
    Token(IntLiteral, text)
  }

  /** `1 + 2 * 3 ;`: `*` binds tighter than `+`. */
  lemma TimesBindsTighter(m: string)
    ensures ParseExpression([Int("1"), Tok(Plus), Int("2"), Tok(Mul), Int("3"), Tok(Semicolon)], 0, 0, m)
         == Success(Parsed(Binary(Plus, IntLit(1), Binary(Mul, IntLit(2), IntLit(3))), 5))
  {
    var ts := [Int("1"), Tok(Plus), Int("2"), Tok(Mul), Int("3"), Tok(Semicolon)];
    TimesBindsTighterWritten(ts);
    ExpressionRoundTrip(ts, 0, Binary(Plus, IntLit(1), Binary(Mul, IntLit(2), IntLit(3))), m);
  }

  lemma TimesBindsTighterWritten(ts: seq<Token>)
    requires ts == [Int("1"), Tok(Plus), Int("2"), Tok(Mul), Int("3"), Tok(Semicolon)]
    ensures Written(ts, Binary(Plus, IntLit(1), Binary(Mul, IntLit(2), IntLit(3))), 5)
  {
    SmallDecimals();
    TwoTimesThree(ts);
  }

  lemma SmallDecimals()
    ensures Decimal(1) == "1" && Decimal(2) == "2" && Decimal(3) == "3"
  {
  }

  lemma TwoTimesThree(ts: seq<Token>)
    requires ts == [Int("1"), Tok(Plus), Int("2"), Tok(Mul), Int("3"), Tok(Semicolon)]
    ensures SpellsOperand(ts, 2, Binary(Mul, IntLit(2), IntLit(3)), 5)
  {
    SmallDecimals();
    assert SpellsOperand(ts, 2, IntLit(2), 5) && Is(ts, 3, Mul) && SpellsOperand(ts, 4, IntLit(3), 6);
  }

  /** `a - b - c ;`: operators of one level group to the left. */
  lemma MinusGroupsLeft(m: string)
    ensures ParseExpression([Ident("a"), Tok(Minus), Ident("b"), Tok(Minus), Ident("c"), Tok(Semicolon)], 0, 0, m)
         == Success(Parsed(Binary(Minus, Binary(Minus, V("a"), V("b")), V("c")), 5))
  {
    var ts := [Ident("a"), Tok(Minus), Ident("b"), Tok(Minus), Ident("c"), Tok(Semicolon)];
    MinusGroupsLeftWritten(ts);
    ExpressionRoundTrip(ts, 0, Binary(Minus, Binary(Minus, V("a"), V("b")), V("c")), m);
  }

  lemma MinusGroupsLeftWritten(ts: seq<Token>)
    requires ts == [Ident("a"), Tok(Minus), Ident("b"), Tok(Minus), Ident("c"), Tok(Semicolon)]
    ensures Written(ts, Binary(Minus, Binary(Minus, V("a"), V("b")), V("c")), 5)
  {
    var e := Binary(Minus, Binary(Minus, V("a"), V("b")), V("c"));
    assert SpellsOperand(ts, 0, e.lhs, 4) by {
      assert SpellsOperand(ts, 0, V("a"), 4) && Is(ts, 1, Minus) && SpellsOperand(ts, 2, V("b"), 5);
    }
  }

  /** `( a + b ) * c ;`: parentheses override the table. */
  lemma ParenthesesGroup(m: string)
    ensures ParseExpression([Tok(LeftParen), Ident("a"), Tok(Plus), Ident("b"), Tok(RightParen), Tok(Mul), Ident("c"), Tok(Semicolon)], 0, 0, m)
         == Success(Parsed(Binary(Mul, Binary(Plus, V("a"), V("b")), V("c")), 7))
  {
    var ts := [Tok(LeftParen), Ident("a"), Tok(Plus), Ident("b"), Tok(RightParen), Tok(Mul), Ident("c"), Tok(Semicolon)];
    ParenthesesGroupWritten(ts);
    ExpressionRoundTrip(ts, 0, Binary(Mul, Binary(Plus, V("a"), V("b")), V("c")), m);
  }

  lemma ParenthesesGroupWritten(ts: seq<Token>)
    requires ts == [Tok(LeftParen), Ident("a"), Tok(Plus), Ident("b"), Tok(RightParen), Tok(Mul), Ident("c"), Tok(Semicolon)]
    ensures Written(ts, Binary(Mul, Binary(Plus, V("a"), V("b")), V("c")), 7)
  {
    ParenthesisedSum(ts);
  }

  lemma ParenthesisedSum(ts: seq<Token>)
    requires ts == [Tok(LeftParen), Ident("a"), Tok(Plus), Ident("b"), Tok(RightParen), Tok(Mul), Ident("c"), Tok(Semicolon)]
    ensures SpellsOperand(ts, 0, Binary(Plus, V("a"), V("b")), 5)
  {
    assert SpellsExpr(ts, 1, Binary(Plus, V("a"), V("b"))) by {
      assert SpellsOperand(ts, 1, V("a"), 4) && Is(ts, 2, Plus) && SpellsOperand(ts, 3, V("b"), 5);
    }
  }

  /** `- - a < b ;`: prefix operators nest and bind tighter than any
      binary operator. */
  lemma PrefixBindsTightest(m: string)
    ensures ParseExpression([Tok(Minus), Tok(Minus), Ident("a"), Tok(Less), Ident("b"), Tok(Semicolon)], 0, 0, m)
         == Success(Parsed(Binary(Less, Unary(Minus, Unary(Minus, V("a"))), V("b")), 5))
  {
    var ts := [Tok(Minus), Tok(Minus), Ident("a"), Tok(Less), Ident("b"), Tok(Semicolon)];
    PrefixBindsTightestWritten(ts);
    ExpressionRoundTrip(ts, 0, Binary(Less, Unary(Minus, Unary(Minus, V("a"))), V("b")), m);
  }

  lemma PrefixBindsTightestWritten(ts: seq<Token>)
    requires ts == [Tok(Minus), Tok(Minus), Ident("a"), Tok(Less), Ident("b"), Tok(Semicolon)]
    ensures Written(ts, Binary(Less, Unary(Minus, Unary(Minus, V("a"))), V("b")), 5)
  {
    DoubleNegation(ts);
  }

  lemma DoubleNegation(ts: seq<Token>)
    requires ts == [Tok(Minus), Tok(Minus), Ident("a"), Tok(Less), Ident("b"), Tok(Semicolon)]
    ensures SpellsOperand(ts, 0, Unary(Minus, Unary(Minus, V("a"))), 3)
  {
    assert SpellsOperand(ts, 1, Unary(Minus, V("a")), 6) by {
      assert SpellsOperand(ts, 2, V("a"), 6);
    }
  }
}

=== FILE: generator.dfy ===
/** The definitions pass of generator.cpp: source types lowered to LLVM
    types, and one signature registered per function name.

    LLVM types are abstracted to the handful the pass can produce; a
    registered function is represented by its signature. */
module Generator {
  import opened Wrappers
  import opened Ast
  import opened Parser
  import opened Imports

  /** The LLVM types the pass uses: `i32`, `i8`, `void`, the null pointer
      `typeInfo` leaves for every other name, and the opaque pointer. */
  datatype LlvmType = Int32 | Int8 | VoidType | NullType | OpaquePointer

  /** `GType`: an element type and how many pointers deep it sits. */
  datatype GType = GType(elementType: LlvmType, depth: nat)

  /** `GType::type`: any pointer is the one opaque pointer type. */
  function Lower(g: GType): LlvmType {
    if g.depth > 0 then OpaquePointer else g.elementType
  }

  /** The element type `typeInfo` chooses for a type name. */
  function ElementType(name: string): LlvmType {
    if name == "i32" then Int32
    else if name == "void" then VoidType
    else if name == "u8" then Int8
    else NullType
  }

  /** `typeInfo`: the element type by name, the depth copied from the
      pointer level. */
  function TypeInfo(name: string, pointerLevel: nat): (g: GType)
    ensures g.depth == pointerLevel
    ensures g.elementType != OpaquePointer
    ensures g.elementType != NullType ==> IsBuiltinType(name)
  {
    GType(ElementType(name), pointerLevel)
  }

  /** The `name` field `typeInfo` reads from a parsed type: the builtin or
      struct name; an array type carries none. */
  function TypeName(t: TypeExpr): string {
    match t
    case Named(name, _) => name
    case StructRef(_, name, _) => name
    case ArrayOf(_, _, _) => ""
  }

  function LowerType(t: TypeExpr): LlvmType {
    Lower(TypeInfo(TypeName(t), t.pointerLevel))
  }

  /** Only `i32`, `void` and `u8` have an element type of their own, and
      no two of them share one. */
  lemma ElementTypeNames(a: string, b: string)
    ensures ElementType(a) != NullType <==> a in {"i32", "void", "u8"}
    ensures ElementType(a) == ElementType(b) != NullType ==> a == b
  {
  }

  /** Lowering forgets the element type exactly when there is a pointer:
      two types of equal depth lower alike iff the depth is positive or
      their element types agree. */
  lemma LowerForgetsElement(e1: LlvmType, e2: LlvmType, depth: nat)
    requires e1 != OpaquePointer && e2 != OpaquePointer
    ensures Lower(GType(e1, depth)) == Lower(GType(e2, depth)) <==> depth > 0 || e1 == e2
  {
  }

  /** A lowered type is the opaque pointer iff the source type had at
      least one `*`, whatever its name. */
  lemma LowerIsPointer(t: TypeExpr)
    ensures LowerType(t) == OpaquePointer <==> t.pointerLevel > 0
    ensures t.pointerLevel == 0 ==> LowerType(t) == ElementType(TypeName(t))
  {
  }

  // ---------------------------------------------------------------------
  // Registration

  /** What `llvm::FunctionType::get` is given: one lowered type per
      parameter, in order, and the lowered return type. */
  datatype Signature = Signature(paramTypes: seq<LlvmType>, returnType: LlvmType)

  function LowerParams(params: seq<Binding>): (ts: seq<LlvmType>)
    ensures |ts| == |params|
    ensures forall k :: 0 <= k < |params| ==> ts[k] == LowerType(params[k].ty)
  {
    if params == [] then [] else [LowerType(params[0].ty)] + LowerParams(params[1..])
  }

  function SignatureOf(def: Node): Signature
    requires def.FunctionDef?
  {
    Signature(LowerParams(def.params), LowerType(def.returnType))
  }

  /** The globals of all files, file by file in the order of `files`. */
  function AllNodes(files: seq<FileInfo>): seq<Node> {
    if files == [] then [] else AllNodes(files[..|files| - 1]) + files[|files| - 1].nodes
  }

  /** The reference for registration: the first function definition with
      the given name, if any. */
  function FirstDefinition(nodes: seq<Node>, name: string): (d: Option<Node>)
    ensures d.Some? ==> d.value.FunctionDef? && d.value.name == name && d.value in nodes
    ensures d.None? <==> forall k :: 0 <= k < |nodes| ==> !(nodes[k].FunctionDef? && nodes[k].name == name)
  {
    if nodes == [] then None
    else if nodes[0].FunctionDef? && nodes[0].name == name then Some(nodes[0])
    else FirstDefinition(nodes[1..], name)
  }

  /** A later definition never replaces an earlier one. */
  lemma {:induction false} FirstDefinitionAppend(a: seq<Node>, b: seq<Node>, name: string)
    ensures FirstDefinition(a + b, name) ==
              if FirstDefinition(a, name).Some? then FirstDefinition(a, name) else FirstDefinition(b, name)
  {
    if a != [] {
      assert (a + b)[0] == a[0] && (a + b)[1..] == a[1..] + b;
      FirstDefinitionAppend(a[1..], b, name);
    } else {
      assert a + b == b;
    }
  }

  /** The functions known after registering `nodes` on top of `functions`:
      the loop body of `generate`, one node at a time. */
  ghost predicate Registered(functions: map<string, Signature>, nodes: seq<Node>) {
    && (forall name :: name in functions <==> FirstDefinition(nodes, name).Some?)
    && (forall name :: name in functions ==> functions[name] == SignatureOf(FirstDefinition(nodes, name).value))
  }

  /** Appending one node adds a definition only for its own name, and only
      when that name had none. */
  lemma FirstDefinitionSnoc(seen: seq<Node>, node: Node, name: string)
    ensures FirstDefinition(seen + [node], name) ==
              if FirstDefinition(seen, name).Some? then FirstDefinition(seen, name)
              else if node.FunctionDef? && node.name == name then Some(node)
              else None
  {
    FirstDefinitionAppend(seen, [node], name);
    assert [node][1..] == [];
  }

  lemma RegisterStep(functions: map<string, Signature>, seen: seq<Node>, node: Node)
    requires Registered(functions, seen)
    ensures node.FunctionDef? && node.name !in functions ==>
              Registered(functions[node.name := SignatureOf(node)], seen + [node])
    ensures !(node.FunctionDef? && node.name !in functions) ==> Registered(functions, seen + [node])
  {
    forall name {
      FirstDefinitionSnoc(seen, node, name);
    }
  }

  /** One file's share of the registration loop: its nodes in order, each
      function definition registered unless its name is already known. */
  method RegisterNodes(known: map<string, Signature>, seen: seq<Node>, nodes: seq<Node>)
    returns (functions: map<string, Signature>)
    requires Registered(known, seen)
    ensures Registered(functions, seen + nodes)
  {
    functions := known;
    var n := 0;
    assert seen + nodes[..0] == seen;
    while n < |nodes|
      invariant 0 <= n <= |nodes|
      invariant Registered(functions, seen + nodes[..n])
    {
      var node := nodes[n];
      RegisterStep(functions, seen + nodes[..n], node);
      if node.FunctionDef? && node.name !in functions {
        functions := functions[node.name := SignatureOf(node)];
      }
      assert seen + nodes[..n] + [node] == seen + nodes[..n + 1] by {
        assert nodes[..n + 1] == nodes[..n] + [node];
      }
      n := n + 1;
    }
    assert seen + nodes[..n] == seen + nodes by {
      assert nodes[..n] == nodes;
    }
  }

  /** The function-registration loop of `generate`: every function
      definition of every file, in order; a name already registered is
      skipped, so the first definition of each name wins. */
  method Generate(files: seq<FileInfo>) returns (functions: map<string, Signature>)
    ensures forall name :: name in functions <==> FirstDefinition(AllNodes(files), name).Some?
    ensures forall name :: name in functions ==>
              functions[name] == SignatureOf(FirstDefinition(AllNodes(files), name).value)
  {
    functions := map[];
    var f := 0;
    while f < |files|
      invariant 0 <= f <= |files|
      invariant Registered(functions, AllNodes(files[..f]))
    {
      functions := RegisterNodes(functions, AllNodes(files[..f]), files[f].nodes);
      assert files[..f + 1][..f] == files[..f];
      f := f + 1;
    }
    assert files[..f] == files;
  }

  lemma {:induction false} AllNodesAppend(a: seq<FileInfo>, b: seq<FileInfo>)
    ensures AllNodes(a + b) == AllNodes(a) + AllNodes(b)
    decreases |b|
  {
    if b == [] {
      assert a + b == a;
    } else {
      var b' := b[..|b| - 1];
      assert (a + b)[..|a + b| - 1] == a + b';
      AllNodesAppend(a, b');
    }
  }

  /** Registering the same files a second time changes nothing. */
  lemma RegistrationIdempotent(files: seq<FileInfo>, name: string)
    ensures FirstDefinition(AllNodes(files + files), name) == FirstDefinition(AllNodes(files), name)
  {
    AllNodesAppend(files, files);
    FirstDefinitionAppend(AllNodes(files), AllNodes(files), name);
  }
}

=== FILE: imports.dfy ===
/** The file walk of parser.cpp: `Parser::parse`, `FileParser::parse` and
    `resolveImportPath`.

    The program lexes each file it reaches; here the token vector of every
    readable file is given as the map `sources`, and a path outside it is a
    file that cannot be read. The shared `Parser` state (`parsedFiles`,
    `pathToModule`, `files`) is threaded through the walk as a `Walk`. */
module Imports {
  import opened Wrappers
  import opened Tokens
  import opened Ast
  import opened Parser

  // ---------------------------------------------------------------------
  // Paths

  predicate StartsWith(s: string, prefix: string) {
    |prefix| <= |s| && s[..|prefix|] == prefix
  }

  predicate IsAbsolute(p: string) {
    |p| > 0 && p[0] == '/'
  }

  /** `operator/` of `std::filesystem::path` on POSIX paths: an absolute
      right side replaces the left one; otherwise a separator is put in
      between unless the left side is empty or already ends with one. */
  function Join(base: string, rel: string): (r: string)
    ensures IsAbsolute(rel) ==> r == rel
    ensures !IsAbsolute(rel) ==> |base| + |rel| <= |r| && r[..|base|] == base && r[|r| - |rel|..] == rel
  {
    if IsAbsolute(rel) then rel
    else if base == "" || base[|base| - 1] == '/' then base + rel
    else base + "/" + rel
  }

  /** The position of the last `/` of `p`, or -1 when there is none. */
  function LastSlash(p: string): (k: int)
    ensures -1 <= k < |p|
    ensures k >= 0 ==> p[k] == '/'
    ensures forall j :: k < j < |p| ==> p[j] != '/'
  {
    if p == [] then -1
    else if p[|p| - 1] == '/' then |p| - 1
    else LastSlash(p[..|p| - 1])
  }

  /** `parent_path`: everything before the last separator; the root is its
      own parent and a bare file name has the empty parent. */
  function ParentPath(p: string): (r: string)
    ensures |r| <= |p|
  {
    var k := LastSlash(p);
    if k < 0 then "" else if k == 0 then "/" else p[..k]
  }

  /** Joining a plain file name to a directory and taking the parent gives
      the directory back. */
  lemma ParentOfJoin(dir: string, name: string)
    requires name != "" && '/' !in name
    requires dir == "/" || (dir != "" && dir[|dir| - 1] != '/')
    ensures ParentPath(Join(dir, name)) == dir
  {
    var r := Join(dir, name);
    var k := |r| - |name| - 1;
    assert r[k] == '/' && r[..k] == (if dir == "/" then "" else dir);
    assert forall j :: k < j < |r| ==> r[j] == name[j - k - 1];
  }

  const StdPrefix: string := "std:"
  const CompilerDir: string := "/opt/compiler/"

  /** `resolveImportPath`: the `std:` test is made on the path with `.pl`
      already appended; a standard-library path is rebuilt under the
      compiler directory and keeps the suffix, any other path is returned
      as it was given, without the suffix. */
  function ResolveImportPath(p: string): (r: string)
    ensures StartsWith(p, StdPrefix) ==> r == Join(Join(CompilerDir, "std"), p[4..] + ".pl")
    ensures !StartsWith(p, StdPrefix) ==> r == p
  {
    var asString := p + ".pl";
    StdTestOnSuffixed(p);
    if StartsWith(asString, StdPrefix) then Join(Join(CompilerDir, "std"), asString[4..]) else p
  }

  /** Appending `.pl` before the `std:` test does not change its outcome. */
  lemma StdTestOnSuffixed(p: string)
    ensures StartsWith(p + ".pl", StdPrefix) <==> StartsWith(p, StdPrefix)
    ensures StartsWith(p, StdPrefix) ==> (p + ".pl")[4..] == p[4..] + ".pl"
  {
    var s := p + ".pl";
    if 4 <= |p| {
      assert s[..4] == p[..4];
    } else {
      assert s[|p|] == '.';
    }
  }

  /** A standard-library import of a relative name lands in the `std`
      directory of the compiler with `.pl` appended. */
  lemma StdImportPath(rest: string)
    requires !IsAbsolute(rest)
    ensures ResolveImportPath(StdPrefix + rest) == "/opt/compiler/std/" + rest + ".pl"
  {
    var p := StdPrefix + rest;
    var rel := rest + ".pl";
    assert StartsWith(p, StdPrefix) && p[4..] == rest;
    var dir := Join(CompilerDir, "std");
    assert dir == "/opt/compiler/std";
    assert !IsAbsolute(rel) by {
      assert rel[0] == if rest == "" then '.' else rest[0];
    }
    assert Join(dir, rel) == dir + "/" + rel;
    assert dir + "/" + rel == "/opt/compiler/std/" + rest + ".pl";
  }

  /** Where `import "value"` in the file at `path` points: the resolved path
      joined to the directory of the importing file. */
  function ImportTarget(path: string, value: string): string {
    Join(ParentPath(path), ResolveImportPath(value))
  }

  // ---------------------------------------------------------------------
  // The walk

  /** `FileInfo`: a parsed file, its globals in source order, and the names
      its function and struct definitions declare. */
  datatype FileInfo = FileInfo(path: string, nodes: seq<Node>,
                               functionSymbols: set<string>, structSymbols: set<string>)

  /** The state shared by all file parsers. */
  datatype Walk = Walk(parsedFiles: set<string>, pathToModule: map<string, string>, files: seq<FileInfo>)

  /** The globals of one file as its loop collects them. */
  datatype Items = Items(nodes: seq<Node>, functionSymbols: set<string>,
                         structSymbols: set<string>, walk: Walk)

  /** Some file in `files` has the given path. */
  predicate Filed(path: string, files: seq<FileInfo>) {
    exists k :: 0 <= k < |files| && files[k].path == path
  }

  /** Every file in `files` was marked parsed, and no path occurs twice. */
  predicate Sound(w: Walk) {
    && (forall k :: 0 <= k < |w.files| ==> w.files[k].path in w.parsedFiles)
    && (forall a, b :: 0 <= a < b < |w.files| ==> w.files[a].path != w.files[b].path)
  }

  /** `w'` continues `w`: no mark is removed, no recorded module forgotten,
      `files` grows only at its end, and every file appended in between was
      unmarked in `w` or is one of `exempt`. */
  predicate Extends(w: Walk, w': Walk, exempt: set<string>) {
    && w.parsedFiles <= w'.parsedFiles
    && w.pathToModule.Keys <= w'.pathToModule.Keys
    && |w.files| <= |w'.files| && w'.files[..|w.files|] == w.files
    && forall k :: |w.files| <= k < |w'.files| ==> w'.files[k].path !in w.parsedFiles - exempt
  }

  /** `files` has a file with path `p` at index `from` or later. */
  predicate FiledAfter(p: string, files: seq<FileInfo>, from: nat) {
    exists k :: from <= k < |files| && files[k].path == p
  }

  /** Every path marked in `w'` but not in `w` is the path of a file
      appended after `w`. */
  predicate Covers(w: Walk, w': Walk) {
    forall p :: p in w'.parsedFiles && p !in w.parsedFiles ==> FiledAfter(p, w'.files, |w.files|)
  }

  lemma CoversTrans(a: Walk, b: Walk, c: Walk, e1: set<string>, e2: set<string>)
    requires Extends(a, b, e1) && Extends(b, c, e2) && Covers(a, b) && Covers(b, c)
    ensures Covers(a, c)
  {
    forall p | p in c.parsedFiles && p !in a.parsedFiles
      ensures FiledAfter(p, c.files, |a.files|)
    {
      if p in b.parsedFiles {
        var k :| |a.files| <= k < |b.files| && b.files[k].path == p;
        assert c.files[k] == c.files[..|b.files|][k];
      }
    }
  }

  lemma ExtendsTrans(a: Walk, b: Walk, c: Walk, e1: set<string>, e2: set<string>)
    requires Extends(a, b, e1) && Extends(b, c, e2)
    ensures Extends(a, c, e1 + e2)
  {
    forall k | |a.files| <= k < |c.files|
      ensures c.files[k].path !in a.parsedFiles - (e1 + e2)
    {
      if k < |b.files| {
        assert c.files[k] == c.files[..|b.files|][k] == b.files[k];
      }
    }
  }

  function FunctionNames(nodes: seq<Node>): set<string> {
    set k | 0 <= k < |nodes| && nodes[k].FunctionDef? :: nodes[k].name
  }

  function StructNames(nodes: seq<Node>): set<string> {
    set k | 0 <= k < |nodes| && nodes[k].StructDef? :: nodes[k].name
  }

  lemma SymbolsAppend(nodes: seq<Node>, g: Node)
    ensures FunctionNames(nodes + [g]) == FunctionNames(nodes) + (if g.FunctionDef? then {g.name} else {})
    ensures StructNames(nodes + [g]) == StructNames(nodes) + (if g.StructDef? then {g.name} else {})
  {
    var s := nodes + [g];
    assert forall k :: 0 <= k < |nodes| ==> s[k] == nodes[k];
    assert s[|nodes|] == g;
  }

  /** `Parser::parse(p)` followed by the `FileParser` it runs: the path is
      marked parsed, the header `module "name"` is read and recorded, the
      items are parsed, and only then is the file appended to `files`, so
      a file comes after every file it imports. The second component of
      the measure lets a call for an unreadable path (which fails at once)
      come from the item loop. */
  function ParseFile(sources: map<string, seq<Token>>, path: string, w: Walk): (r: Result<Walk>)
    ensures r.Success? ==> w.parsedFiles + {path} <= r.value.parsedFiles
    decreases sources.Keys - w.parsedFiles, if path in sources then 1 else 0, 0
  {
    if path !in sources then Failure("cannot read " + path)
    else
      var ts := sources[path];
      var w1 := w.(parsedFiles := w.parsedFiles + {path});
      var keyword :- ExpectConsume(ts, 0, KeywordModule, "Expected keyword module");
      var name :- ExpectConsume(ts, 1, StringLiteral, "Expected module name");
      var w2 := w1.(pathToModule := w1.pathToModule[path := name.item.value]);
      var items :- ParseItems(sources, path, ts, 2, name.item.value, Items([], {}, {}, w2));
      Success(items.walk.(files := items.walk.files + [FileInfo(path, items.nodes, items.functionSymbols, items.structSymbols)]))
  }

  /** The `while (!eof())` loop of `FileParser::parse`: an `import "p"`
      parses the target first unless `parsedFiles` already holds it (the
      path is inserted before the nested parse, so an import cycle ends);
      any other item is a global declaration. */
  function ParseItems(sources: map<string, seq<Token>>, path: string, ts: seq<Token>, i: nat,
                      modName: string, acc: Items): (r: Result<Items>)
    requires i <= |ts|
    ensures r.Success? ==> acc.walk.parsedFiles <= r.value.walk.parsedFiles
    decreases sources.Keys - acc.walk.parsedFiles, 0, |ts| - i
  {
    var atEnd :- AtEof(ts, i);
    if atEnd then Success(acc)
    else if ts[i].kind == KeywordImport then
      var literal :- ExpectConsume(ts, i + 1, StringLiteral, "Expected file to import");
      var target := ImportTarget(path, literal.item.value);
      if target in acc.walk.parsedFiles then ParseItems(sources, path, ts, i + 2, modName, acc)
      else
        var w1 := acc.walk.(parsedFiles := acc.walk.parsedFiles + {target});
        var w2 :- ParseFile(sources, target, w1);
        ParseItems(sources, path, ts, i + 2, modName, acc.(walk := w2))
    else
      var global :- ParseGlobal(ts, i, modName);
      ParseItems(sources, path, ts, global.next, modName, Collect(acc, global.item))
  }

  /** A global declaration added to the file's list; `parseFunction` and
      `parseStruct` insert its name into the matching symbol set. */
  function Collect(acc: Items, g: Node): Items {
    acc.(nodes := acc.nodes + [g],
         functionSymbols := if g.FunctionDef? then acc.functionSymbols + {g.name} else acc.functionSymbols,
         structSymbols := if g.StructDef? then acc.structSymbols + {g.name} else acc.structSymbols)
  }

  /** `Parser::parse` on the entry file, with nothing parsed yet. */
  function Parse(sources: map<string, seq<Token>>, root: string): (r: Result<Walk>) {
    ParseFile(sources, root, Walk({}, map[], []))
  }

  // ---------------------------------------------------------------------
  // Properties of the walk

  lemma FileAppended(w: Walk, w2: Walk, w3: Walk, file: FileInfo)
    requires Sound(w3) && !Filed(file.path, w3.files) && file.path in w3.parsedFiles
    requires w2.parsedFiles == w.parsedFiles + {file.path} && w.files == w2.files
    requires w.pathToModule.Keys <= w2.pathToModule.Keys
    requires Extends(w2, w3, {})
    ensures Sound(w3.(files := w3.files + [file]))
    ensures Extends(w, w3.(files := w3.files + [file]), {file.path})
  {
    var fs := w3.files + [file];
    assert forall k :: 0 <= k < |w3.files| ==> fs[k] == w3.files[k];
    assert fs[..|w.files|] == w3.files[..|w.files|];
  }

  /** The file appended at the end of a file's walk covers its own mark;
      the marks made by its items are covered by the files they appended. */
  lemma FileCovered(w: Walk, w2: Walk, w3: Walk, file: FileInfo)
    requires w2.parsedFiles == w.parsedFiles + {file.path} && w.files == w2.files
    requires Extends(w2, w3, {}) && Covers(w2, w3)
    ensures Covers(w, w3.(files := w3.files + [file]))
    ensures |w.files| < |w3.files + [file]|
  {
    var fs := w3.files + [file];
    forall p | p in w3.parsedFiles && p !in w.parsedFiles
      ensures FiledAfter(p, fs, |w.files|)
    {
      if p == file.path {
        assert fs[|w3.files|].path == p;
      } else {
        var k :| |w2.files| <= k < |w3.files| && w3.files[k].path == p;
        assert fs[k] == w3.files[k];
      }
    }
  }

  /** Marking `target` before its nested parse is covered once the parse
      has filed it. */
  lemma ImportCovered(w: Walk, w1: Walk, w2: Walk, target: string)
    requires w1 == w.(parsedFiles := w.parsedFiles + {target})
    requires Covers(w1, w2) && |w.files| < |w2.files| && w2.files[|w2.files| - 1].path == target
    ensures Covers(w, w2)
  {
    forall p | p in w2.parsedFiles && p !in w.parsedFiles
      ensures FiledAfter(p, w2.files, |w.files|)
    {
      if p == target {
        assert w2.files[|w2.files| - 1].path == p;
      }
    }
  }

  /** After a nested parse of `target`, which was unmarked, the importing
      file is still unfiled and only unmarked files were appended. */
  lemma ImportParsed(w: Walk, w1: Walk, w2: Walk, path: string, target: string)
    requires w1 == w.(parsedFiles := w.parsedFiles + {target}) && target !in w.parsedFiles
    requires path in w.parsedFiles && !Filed(path, w.files)
    requires Extends(w1, w2, {target})
    ensures Extends(w, w2, {}) && !Filed(path, w2.files)
  {
    assert forall k :: |w.files| <= k < |w2.files| ==> w2.files[k].path != path;
  }

  // One step of the item loop, by the token under the cursor.

  lemma ItemsShape(sources: map<string, seq<Token>>, path: string, ts: seq<Token>, i: nat,
                   modName: string, acc: Items)
    requires i <= |ts|
    ensures var r := ParseItems(sources, path, ts, i, modName, acc);
            r.Success? ==> && i < |ts|
                           && (ts[i].kind == EOF ==> r.value == acc)
                           && (ts[i].kind == KeywordImport ==> i + 1 < |ts| && ts[i + 1].kind == StringLiteral)
  {
  }

  lemma ExtendsSelf(w: Walk)
    ensures Extends(w, w, {})
  {
    assert w.files[..|w.files|] == w.files;
  }

  lemma ItemsImportKnown(sources: map<string, seq<Token>>, path: string, ts: seq<Token>, i: nat,
                         modName: string, acc: Items)
    requires i + 1 < |ts| && ts[i].kind == KeywordImport && ts[i + 1].kind == StringLiteral
    requires ImportTarget(path, ts[i + 1].value) in acc.walk.parsedFiles
    ensures var r := ParseItems(sources, path, ts, i, modName, acc);
            r.Success? ==> r == ParseItems(sources, path, ts, i + 2, modName, acc)
  {
  }

  lemma ItemsImportNew(sources: map<string, seq<Token>>, path: string, ts: seq<Token>, i: nat,
                       modName: string, acc: Items, target: string, w1: Walk)
    requires i + 1 < |ts| && ts[i].kind == KeywordImport && ts[i + 1].kind == StringLiteral
    requires target == ImportTarget(path, ts[i + 1].value) && target !in acc.walk.parsedFiles
    requires w1 == acc.walk.(parsedFiles := acc.walk.parsedFiles + {target})
    ensures var r := ParseItems(sources, path, ts, i, modName, acc);
            r.Success? ==> && ParseFile(sources, target, w1).Success?
                           && r == ParseItems(sources, path, ts, i + 2, modName, acc.(walk := ParseFile(sources, target, w1).value))
  {
    ConsumeLiteral(ts, i + 1);
  }

  lemma ConsumeLiteral(ts: seq<Token>, i: nat)
    requires i < |ts| && ts[i].kind == StringLiteral
    ensures ExpectConsume(ts, i, StringLiteral, "Expected file to import") == Success(Parsed(ts[i], i + 1))
  {
  }

  lemma ItemsGlobal(sources: map<string, seq<Token>>, path: string, ts: seq<Token>, i: nat,
                    modName: string, acc: Items)
    requires i < |ts| && ts[i].kind != KeywordImport && ts[i].kind != EOF
    ensures var r := ParseItems(sources, path, ts, i, modName, acc);
            r.Success? ==> && ParseGlobal(ts, i, modName).Success?
                           && r == ParseItems(sources, path, ts, ParseGlobal(ts, i, modName).value.next, modName,
                                              Collect(acc, ParseGlobal(ts, i, modName).value.item))
  {
  }

  /** The invariant of the item loop: when the loop from `i` succeeds,
      every path is still filed at most once, only files that were
      unmarked were appended, and the file being parsed is not filed. */
  predicate WalkKept(sources: map<string, seq<Token>>, path: string, ts: seq<Token>, i: nat,
                     modName: string, acc: Items)
    requires i <= |ts|
  {
    var r := ParseItems(sources, path, ts, i, modName, acc);
    r.Success? ==> && Sound(r.value.walk) && Extends(acc.walk, r.value.walk, {}) && !Filed(path, r.value.walk.files)
                   && Covers(acc.walk, r.value.walk)
  }

  /** Parsing a file that is not filed yet keeps every path filed at most
      once, files it last, and appends no file that was already marked
      (other than itself). */
  lemma {:induction false} FileWalk(sources: map<string, seq<Token>>, path: string, w: Walk)
    requires Sound(w) && !Filed(path, w.files)
    ensures var r := ParseFile(sources, path, w);
            r.Success? ==> && Sound(r.value) && Extends(w, r.value, {path}) && Covers(w, r.value)
                           && path in r.value.pathToModule
                           && |w.files| < |r.value.files| && r.value.files[|r.value.files| - 1].path == path
    decreases sources.Keys - w.parsedFiles, if path in sources then 1 else 0, 0, 0
  {
    var r := ParseFile(sources, path, w);
    if r.Success? {
      var ts := sources[path];
      var w1 := w.(parsedFiles := w.parsedFiles + {path});
      var name := ts[1].value;
      var w2 := w1.(pathToModule := w1.pathToModule[path := name]);
      var acc := Items([], {}, {}, w2);
      ItemsWalk(sources, path, ts, 2, name, acc);
      var items := ParseItems(sources, path, ts, 2, name, acc).value;
      var file := FileInfo(path, items.nodes, items.functionSymbols, items.structSymbols);
      FileAppended(w, w2, items.walk, file);
      FileCovered(w, w2, items.walk, file);
    }
  }

  /** The item loop of a file that is marked but not yet filed keeps the
      invariant, by the token under the cursor. */
  lemma {:induction false} ItemsWalk(sources: map<string, seq<Token>>, path: string, ts: seq<Token>, i: nat,
                                     modName: string, acc: Items)
    requires i <= |ts|
    requires Sound(acc.walk) && path in acc.walk.parsedFiles && !Filed(path, acc.walk.files)
    ensures WalkKept(sources, path, ts, i, modName, acc)
    decreases sources.Keys - acc.walk.parsedFiles, 0, |ts| - i, 1
  {
    ItemsShape(sources, path, ts, i, modName, acc);
    if i < |ts| && ts[i].kind == EOF {
      ExtendsSelf(acc.walk);
    } else if i < |ts| && ts[i].kind != KeywordImport {
      GlobalWalk(sources, path, ts, i, modName, acc);
    } else if i + 1 < |ts| && ts[i].kind == KeywordImport && ts[i + 1].kind == StringLiteral {
      if ImportTarget(path, ts[i + 1].value) in acc.walk.parsedFiles {
        KnownImportWalk(sources, path, ts, i, modName, acc);
      } else {
        ImportWalk(sources, path, ts, i, modName, acc);
      }
    }
  }

  lemma {:induction false} KnownImportWalk(sources: map<string, seq<Token>>, path: string, ts: seq<Token>, i: nat,
                                           modName: string, acc: Items)
    requires i + 1 < |ts| && ts[i].kind == KeywordImport && ts[i + 1].kind == StringLiteral
    requires ImportTarget(path, ts[i + 1].value) in acc.walk.parsedFiles
    requires Sound(acc.walk) && path in acc.walk.parsedFiles && !Filed(path, acc.walk.files)
    ensures WalkKept(sources, path, ts, i, modName, acc)
    decreases sources.Keys - acc.walk.parsedFiles, 0, |ts| - i, 0
  {
    ItemsImportKnown(sources, path, ts, i, modName, acc);
    ItemsWalk(sources, path, ts, i + 2, modName, acc);
  }

  lemma {:induction false} GlobalWalk(sources: map<string, seq<Token>>, path: string, ts: seq<Token>, i: nat,
                                      modName: string, acc: Items)
    requires i < |ts| && ts[i].kind != KeywordImport && ts[i].kind != EOF
    requires Sound(acc.walk) && path in acc.walk.parsedFiles && !Filed(path, acc.walk.files)
    ensures WalkKept(sources, path, ts, i, modName, acc)
    decreases sources.Keys - acc.walk.parsedFiles, 0, |ts| - i, 0
  {
    ItemsGlobal(sources, path, ts, i, modName, acc);
    var global := ParseGlobal(ts, i, modName);
    if global.Success? {
      ItemsWalk(sources, path, ts, global.value.next, modName, Collect(acc, global.value.item));
    }
  }

  lemma {:induction false} ImportWalk(sources: map<string, seq<Token>>, path: string, ts: seq<Token>, i: nat,
                                      modName: string, acc: Items)
    requires i + 1 < |ts| && ts[i].kind == KeywordImport && ts[i + 1].kind == StringLiteral
    requires ImportTarget(path, ts[i + 1].value) !in acc.walk.parsedFiles
    requires Sound(acc.walk) && path in acc.walk.parsedFiles && !Filed(path, acc.walk.files)
    ensures WalkKept(sources, path, ts, i, modName, acc)
    decreases sources.Keys - acc.walk.parsedFiles, 0, |ts| - i, 0
  {
    var r := ParseItems(sources, path, ts, i, modName, acc);
    var target := ImportTarget(path, ts[i + 1].value);
    var w1 := acc.walk.(parsedFiles := acc.walk.parsedFiles + {target});
    ItemsImportNew(sources, path, ts, i, modName, acc, target, w1);
    if r.Success? {
      ImportNested(sources, path, target, acc.walk);
      var w2 := ParseFile(sources, target, w1).value;
      ItemsWalk(sources, path, ts, i + 2, modName, acc.(walk := w2));
      ExtendsTrans(acc.walk, w2, r.value.walk, {}, {});
      CoversTrans(acc.walk, w2, r.value.walk, {}, {});
    }
  }

  /** The nested parse of an unmarked import target, seen from the
      importing file: the walk stays sound, the importing file stays
      unfiled, and every new mark is filed. */
  lemma {:induction false} ImportNested(sources: map<string, seq<Token>>, path: string, target: string, w: Walk)
    requires target !in w.parsedFiles
    requires Sound(w) && path in w.parsedFiles && !Filed(path, w.files)
    ensures var r := ParseFile(sources, target, w.(parsedFiles := w.parsedFiles + {target}));
            r.Success? ==> && Sound(r.value) && path in r.value.parsedFiles && !Filed(path, r.value.files)
                           && Extends(w, r.value, {}) && Covers(w, r.value)
    decreases sources.Keys - w.parsedFiles, 0, 0, 1
  {
    var w1 := w.(parsedFiles := w.parsedFiles + {target});
    FileWalk(sources, target, w1);
    var r := ParseFile(sources, target, w1);
    if r.Success? {
      ImportParsed(w, w1, r.value, path, target);
      ImportCovered(w, w1, r.value, target);
    }
  }

  /** The set of paths of `files`. */
  function Paths(files: seq<FileInfo>): (r: set<string>)
    ensures forall p :: p in r <==> Filed(p, files)
  {
    if files == [] then {}
    else
      var init := files[..|files| - 1];
      assert forall k :: 0 <= k < |init| ==> init[k] == files[k];
      assert Filed(files[|files| - 1].path, files);
      assert forall p :: Filed(p, files) && p != files[|files| - 1].path ==> Filed(p, init);
      Paths(init) + {files[|files| - 1].path}
  }

  /** Files with pairwise distinct paths have as many paths as files. */
  lemma {:induction false} DistinctPaths(files: seq<FileInfo>)
    requires forall a, b :: 0 <= a < b < |files| ==> files[a].path != files[b].path
    ensures |Paths(files)| == |files|
  {
    if files != [] {
      var init := files[..|files| - 1];
      DistinctPaths(init);
      assert !Filed(files[|files| - 1].path, init);
    }
  }

  /** Each distinct path reached is parsed exactly once: after a successful
      walk from the entry file no path occurs twice in `files`, a path is
      filed exactly when it was marked parsed (so there are as many files
      as marked paths), and the entry file comes last. */
  lemma ParseOnce(sources: map<string, seq<Token>>, root: string)
    ensures var r := Parse(sources, root);
            r.Success? ==> && (forall a, b :: 0 <= a < b < |r.value.files| ==> r.value.files[a].path != r.value.files[b].path)
                           && (forall p :: p in r.value.parsedFiles <==> Filed(p, r.value.files))
                           && |r.value.parsedFiles| == |r.value.files|
                           && |r.value.files| > 0 && r.value.files[|r.value.files| - 1].path == root
  {
    var w := Walk({}, map[], []);
    FileWalk(sources, root, w);
    var r := Parse(sources, root);
    if r.Success? {
      forall p | Filed(p, r.value.files)
        ensures p in r.value.parsedFiles
      {
        var k :| 0 <= k < |r.value.files| && r.value.files[k].path == p;
      }
      assert r.value.parsedFiles == Paths(r.value.files);
      DistinctPaths(r.value.files);
    }
  }

  /** The symbol sets of a file are the names of its function and struct
      definitions. */
  lemma {:induction false} ItemsSymbols(sources: map<string, seq<Token>>, path: string, ts: seq<Token>, i: nat,
                                        modName: string, acc: Items)
    requires i <= |ts|
    requires acc.functionSymbols == FunctionNames(acc.nodes) && acc.structSymbols == StructNames(acc.nodes)
    ensures var r := ParseItems(sources, path, ts, i, modName, acc);
            r.Success? ==> r.value.functionSymbols == FunctionNames(r.value.nodes)
                           && r.value.structSymbols == StructNames(r.value.nodes)
    decreases sources.Keys - acc.walk.parsedFiles, 0, |ts| - i
  {
    var r := ParseItems(sources, path, ts, i, modName, acc);
    if r.Success? && ts[i].kind != EOF {
      if ts[i].kind == KeywordImport {
        var target := ImportTarget(path, ts[i + 1].value);
        if target in acc.walk.parsedFiles {
          ItemsImportKnown(sources, path, ts, i, modName, acc);
          ItemsSymbols(sources, path, ts, i + 2, modName, acc);
        } else {
          var w1 := acc.walk.(parsedFiles := acc.walk.parsedFiles + {target});
          ItemsImportNew(sources, path, ts, i, modName, acc, target, w1);
          var w2 := ParseFile(sources, target, w1).value;
          ItemsSymbols(sources, path, ts, i + 2, modName, acc.(walk := w2));
        }
      } else {
        ItemsGlobal(sources, path, ts, i, modName, acc);
        var global := ParseGlobal(ts, i, modName).value;
        SymbolsAppend(acc.nodes, global.item);
        ItemsSymbols(sources, path, ts, global.next, modName, Collect(acc, global.item));
      }
    }
  }
}

=== FILE: lexer.dfy ===
/** The character-level scanner of lexer.cpp.

    `Lexer::next` is modelled as a pure function from the input text and the
    cursor `position` to the token it returns and the new cursor. Character
    classes follow the C locale (`isspace`, `isalpha`, `isalnum` on ASCII). */
module Lexer {
  import opened Wrappers
  import opened Tokens

  predicate IsSpace(c: char) {
    c == ' ' || c == '\t' || c == '\n' || c == '\r' || c as int == 11 || c as int == 12
  }

  predicate IsAlpha(c: char) {
    ('a' <= c <= 'z') || ('A' <= c <= 'Z')
  }

  predicate IsDigit(c: char) {
    '0' <= c <= '9'
  }

  /** Characters that extend an identifier once it has started. */
  predicate IsIdentChar(c: char) {
    IsAlpha(c) || IsDigit(c) || c == '_'
  }

  /** The keyword table: the only keyword this scanner knows is `fn`. */
  const Keywords: map<string, TokenKind> := map["fn" := KeywordFn]

  /** The single-character delimiters and the kinds they map to. */
  function DelimiterKind(c: char): (k: Option<TokenKind>)
    ensures k.Some? <==> c in "{}();"
    ensures k.Some? ==> k.value in {LeftBrace, RightBrace, LeftParen, RightParen, Semicolon}
  {
    if c == '{' then Some(LeftBrace)
    else if c == '}' then Some(RightBrace)
    else if c == '(' then Some(LeftParen)
    else if c == ')' then Some(RightParen)
    else if c == ';' then Some(Semicolon)
    else None
  }

  /** The text of a delimiter token, keyed by its kind: the value the
      scanner returns with each of the five kinds. */
  function DelimiterText(k: TokenKind): (t: Option<char>)
    ensures t.Some? <==> k in {LeftBrace, RightBrace, LeftParen, RightParen, Semicolon}
  {
    match k
    case LeftBrace => Some('{')
    case RightBrace => Some('}')
    case LeftParen => Some('(')
    case RightParen => Some(')')
    case Semicolon => Some(';')
    case _ => None
  }

  /** Each delimiter character gets the kind whose text it is, so the five
      characters get five different kinds. */
  lemma DelimiterKindText(c: char, k: TokenKind)
    ensures DelimiterKind(c) == Some(k) <==> DelimiterText(k) == Some(c)
  {
  }

  lemma DelimiterKindsDistinct(c: char, d: char)
    ensures DelimiterKind(c).Some? && DelimiterKind(c) == DelimiterKind(d) ==> c == d
  {
  }

  /** One call of `next`: the token it returns and where the cursor is left. */
  datatype Step = Step(token: Token, position: nat)

  /** The cursor after skipping the run of whitespace that starts at `pos`. */
  function SkipSpaces(input: string, pos: nat): (q: nat)
    requires pos <= |input|
    ensures pos <= q <= |input|
    ensures forall k :: pos <= k < q ==> IsSpace(input[k])
    ensures q == |input| || !IsSpace(input[q])
    decreases |input| - pos
  {
    if pos < |input| && IsSpace(input[pos]) then SkipSpaces(input, pos + 1) else pos
  }

  /** The end of the maximal run of identifier characters starting at `pos`. */
  function IdentEnd(input: string, pos: nat): (q: nat)
    requires pos <= |input|
    ensures pos <= q <= |input|
    ensures forall k :: pos <= k < q ==> IsIdentChar(input[k])
    ensures q == |input| || !IsIdentChar(input[q])
    decreases |input| - pos
  {
    if pos < |input| && IsIdentChar(input[pos]) then IdentEnd(input, pos + 1) else pos
  }

  /** The position of the first double quote at or after `pos`, or the end of input. */
  function QuoteEnd(input: string, pos: nat): (q: nat)
    requires pos <= |input|
    ensures pos <= q <= |input|
    ensures forall k :: pos <= k < q ==> input[k] != '"'
    ensures q == |input| || input[q] == '"'
    decreases |input| - pos
  {
    if pos < |input| && input[pos] != '"' then QuoteEnd(input, pos + 1) else pos
  }

  /** `parseIdentOrKeyword`: the lexeme is the maximal identifier run; it is
      a keyword token when the table holds it and an identifier otherwise. */
  function ScanIdentOrKeyword(input: string, pos: nat): (s: Step)
    requires pos < |input| && IsAlpha(input[pos])
    ensures pos < s.position <= |input|
    ensures s.token.value == input[pos..s.position]
    ensures forall k :: pos <= k < s.position ==> IsIdentChar(input[k])
    ensures s.position == |input| || !IsIdentChar(input[s.position])
    ensures s.token.kind == KeywordFn <==> s.token.value == "fn"
    ensures s.token.kind == Identifier <==> s.token.value != "fn"
  {
    var q := IdentEnd(input, pos);
    var lexeme := input[pos..q];
    if lexeme in Keywords then Step(Token(Keywords[lexeme], lexeme), q)
    else Step(Token(Identifier, lexeme), q)
  }

  /** `parseStringLiteral`: the value is the text strictly between the
      opening quote and the next quote; an unterminated literal runs to the
      end of the input and is still a string literal. */
  function ScanStringLiteral(input: string, pos: nat): (s: Step)
    requires pos < |input| && input[pos] == '"'
    ensures s.token.kind == StringLiteral
    ensures pos < s.position <= |input|
    ensures '"' !in s.token.value
    ensures '"' in input[pos + 1..] ==>
              pos + 2 <= s.position && input[s.position - 1] == '"' && s.token.value == input[pos + 1..s.position - 1]
    ensures '"' !in input[pos + 1..] ==> s.position == |input| && s.token.value == input[pos + 1..]
  {
    var q := QuoteEnd(input, pos + 1);
    var literal := input[pos + 1..q];
    assert forall k :: 0 <= k < |literal| ==> literal[k] == input[pos + 1 + k];
    assert q == |input| ==> input[pos + 1..] == literal;
    if q < |input| then Step(Token(StringLiteral, literal), q + 1)
    else Step(Token(StringLiteral, literal), q)
  }

  /** `Lexer::next`: skip whitespace, then dispatch on the first character. */
  function Next(input: string, pos: nat): (s: Step)
    requires pos <= |input|
    ensures pos <= s.position <= |input|
    ensures s.token.kind == EOF <==> forall k :: pos <= k < |input| ==> IsSpace(input[k])
    ensures s.token.kind == EOF ==> s.token.value == "" && s.position == |input|
    ensures s.token.kind != EOF ==> pos < s.position
  {
    var p := SkipSpaces(input, pos);
    if p == |input| then Step(Token(EOF, ""), p)
    else
      var c := input[p];
      if IsAlpha(c) then ScanIdentOrKeyword(input, p)
      else if c == '"' then ScanStringLiteral(input, p)
      else match DelimiterKind(c)
        case Some(k) => Step(Token(k, [c]), p + 1)
        case None => Step(Token(Unknown, [c]), p + 1)
  }

  /** After the blanks, a character that starts neither an identifier nor
      a string literal is a token on its own: one of the five delimiters
      with its kind, any other character as an unknown token. */
  lemma NextOneChar(input: string, pos: nat, p: nat)
    requires pos <= p < |input| && p == SkipSpaces(input, pos)
    requires !IsAlpha(input[p]) && input[p] != '"'
    ensures Next(input, pos).position == p + 1
    ensures Next(input, pos).token.value == [input[p]]
    ensures input[p] in "{}();" ==> Next(input, pos).token.kind == DelimiterKind(input[p]).value
    ensures input[p] !in "{}();" ==> Next(input, pos).token.kind == Unknown
  {
  }

  /** The token stream a parser receives: `next` called until it returns the
      end-of-input token, which closes the stream. */
  function Tokenize(input: string, pos: nat): (ts: seq<Token>)
    requires pos <= |input|
    ensures |ts| > 0 && ts[|ts| - 1] == Token(EOF, "")
    ensures forall k :: 0 <= k < |ts| - 1 ==> ts[k].kind != EOF
    decreases |input| - pos
  {
    var s := Next(input, pos);
    if s.token.kind == EOF then [s.token] else [s.token] + Tokenize(input, s.position)
  }
}

=== FILE: lexer_roundtrip.dfy ===
/** A reference for the scanner: tokens written out with one blank before
    each are read back as exactly the same tokens, followed by end-of-input. */
module LexerRoundTrip {
  import opened Wrappers
  import opened Tokens
  import opened Lexer

  /** Tokens the scanner can produce, with the value it would give them. */
  predicate Renderable(t: Token) {
    if t.kind == Identifier then
      && |t.value| > 0 && IsAlpha(t.value[0])
      && (forall k :: 0 <= k < |t.value| ==> IsIdentChar(t.value[k]))
      && t.value != "fn"
    else if t.kind == KeywordFn then t.value == "fn"
    else if t.kind == StringLiteral then '"' !in t.value
    else if t.kind == Unknown then
      && |t.value| == 1 && !IsSpace(t.value[0]) && !IsAlpha(t.value[0])
      && t.value[0] != '"' && DelimiterKind(t.value[0]).None?
    else |t.value| == 1 && DelimiterKind(t.value[0]) == Some(t.kind)
  }

  /** The source text of one token. */
  function Spell(t: Token): string {
    if t.kind == StringLiteral then "\"" + t.value + "\"" else t.value
  }

  /** The source text of a token sequence, one blank before each token. */
  function Render(ts: seq<Token>): string {
    if ts == [] then "" else " " + Spell(ts[0]) + Render(ts[1..])
  }

  lemma IdentEndAt(input: string, pos: nat, q: nat)
    requires pos <= q <= |input|
    requires forall k :: pos <= k < q ==> IsIdentChar(input[k])
    requires q == |input| || !IsIdentChar(input[q])
    ensures IdentEnd(input, pos) == q
  {
  }

  lemma QuoteEndAt(input: string, pos: nat, q: nat)
    requires pos <= q < |input|
    requires forall k :: pos <= k < q ==> input[k] != '"'
    requires input[q] == '"'
    ensures QuoteEnd(input, pos) == q
  {
  }

  lemma NextSpelledWord(input: string, pos: nat, t: Token)
    requires t.kind == Identifier || t.kind == KeywordFn
    requires Renderable(t)
    requires pos + |t.value| <= |input| && input[pos..pos + |t.value|] == t.value
    requires pos + |t.value| == |input| || input[pos + |t.value|] == ' '
    ensures Next(input, pos) == Step(t, pos + |t.value|)
  {
    var v := t.value;
    assert input[pos] == v[0];
    assert SkipSpaces(input, pos) == pos;
    assert forall k :: pos <= k < pos + |v| ==> input[k] == v[k - pos];
    IdentEndAt(input, pos, pos + |v|);
    assert Next(input, pos) == ScanIdentOrKeyword(input, pos);
  }

  lemma NextSpelledString(input: string, pos: nat, t: Token)
    requires t.kind == StringLiteral
    requires Renderable(t)
    requires pos + |Spell(t)| <= |input| && input[pos..pos + |Spell(t)|] == Spell(t)
    ensures Next(input, pos) == Step(t, pos + |Spell(t)|)
  {
    var v := t.value;
    var sp := Spell(t);
    assert input[pos] == sp[0] == '"';
    assert SkipSpaces(input, pos) == pos;
    assert forall k :: pos + 1 <= k < pos + 1 + |v| ==> input[k] == v[k - pos - 1];
    assert input[pos + 1 + |v|] == sp[1 + |v|] == '"';
    QuoteEndAt(input, pos + 1, pos + 1 + |v|);
    assert input[pos + 1..pos + 1 + |v|] == v;
    assert Next(input, pos) == ScanStringLiteral(input, pos);
  }

  lemma NextSpelledChar(input: string, pos: nat, t: Token)
    requires t.kind != Identifier && t.kind != KeywordFn && t.kind != StringLiteral
    requires Renderable(t)
    requires pos + 1 <= |input| && input[pos..pos + 1] == t.value
    ensures Next(input, pos) == Step(t, pos + 1)
  {
    var c := input[pos];
    assert t.value == [c];
    assert SkipSpaces(input, pos) == pos;
    assert !IsAlpha(c) && c != '"';
  }

  /** A renderable token spelled at `pos` and followed by a blank or the end
      of input is exactly what `next` returns there. */
  lemma NextSpelled(input: string, pos: nat, t: Token)
    requires Renderable(t)
    requires pos + |Spell(t)| <= |input| && input[pos..pos + |Spell(t)|] == Spell(t)
    requires pos + |Spell(t)| == |input| || input[pos + |Spell(t)|] == ' '
    ensures Next(input, pos) == Step(t, pos + |Spell(t)|) && t.kind != EOF
  {
    if t.kind == Identifier || t.kind == KeywordFn {
      NextSpelledWord(input, pos, t);
    } else if t.kind == StringLiteral {
      NextSpelledString(input, pos, t);
    } else {
      NextSpelledChar(input, pos, t);
    }
  }

  lemma NextSkipsBlank(input: string, pos: nat)
    requires pos < |input| && input[pos] == ' '
    ensures Next(input, pos) == Next(input, pos + 1)
  {
    assert SkipSpaces(input, pos) == SkipSpaces(input, pos + 1);
  }

  /** How the text of a non-empty rendering splits around its first token. */
  lemma {:induction false} RenderSplit(input: string, pos: nat, ts: seq<Token>)
    requires ts != []
    requires pos <= |input| && input[pos..] == Render(ts)
    ensures pos + 1 + |Spell(ts[0])| <= |input|
    ensures input[pos] == ' '
    ensures input[pos + 1..pos + 1 + |Spell(ts[0])|] == Spell(ts[0])
    ensures input[pos + 1 + |Spell(ts[0])|..] == Render(ts[1..])
  {
    var sp := Spell(ts[0]);
    var rest := Render(ts[1..]);
    var w := input[pos..];
    assert w == " " + sp + rest;
    assert input[pos] == w[0] == ' ';
    assert input[pos + 1..pos + 1 + |sp|] == w[1..1 + |sp|] == sp;
    assert input[pos + 1 + |sp|..] == w[1 + |sp|..] == rest;
  }

  lemma RenderStartsWithBlank(ts: seq<Token>)
    ensures Render(ts) == "" || Render(ts)[0] == ' '
  {
  }

  /** `next` reads the first token of a rendering and stops where the
      rendering of the remaining tokens begins. */
  lemma TokenizeFirst(input: string, pos: nat, ts: seq<Token>, end: nat)
    requires ts != [] && Renderable(ts[0]) && end == pos + 1 + |Spell(ts[0])|
    requires pos <= |input| && input[pos..] == Render(ts)
    ensures end <= |input| && input[end..] == Render(ts[1..])
    ensures Next(input, pos) == Step(ts[0], end) && ts[0].kind != EOF
  {
    var t := ts[0];
    RenderSplit(input, pos, ts);
    RenderStartsWithBlank(ts[1..]);
    assert end == |input| || input[end] == input[end..][0];
    NextSpelled(input, pos + 1, t);
    NextSkipsBlank(input, pos);
  }

  /** `tokenize` keeps what `next` returns unless it is the end of input. */
  lemma TokenizeStep(input: string, pos: nat, t: Token, end: nat)
    requires pos <= |input| && Next(input, pos) == Step(t, end) && t.kind != EOF
    ensures end <= |input| && Tokenize(input, pos) == [t] + Tokenize(input, end)
  {
  }

  lemma AppendEof(ts: seq<Token>)
    requires ts != []
    ensures [ts[0]] + (ts[1..] + [Token(EOF, "")]) == ts + [Token(EOF, "")]
  {
    assert ts == [ts[0]] + ts[1..];
  }

  lemma TokenizeEmpty(input: string, pos: nat)
    requires pos <= |input| && input[pos..] == ""
    ensures Tokenize(input, pos) == [Token(EOF, "")]
  {
    assert pos == |input|;
    assert Next(input, pos).token == Token(EOF, "");
  }

  /** Every token of `ts` is renderable. */
  predicate AllRenderable(ts: seq<Token>) {
    ts == [] || (Renderable(ts[0]) && AllRenderable(ts[1..]))
  }

  lemma {:induction false} AllRenderableEach(ts: seq<Token>)
    requires forall k :: 0 <= k < |ts| ==> Renderable(ts[k])
    ensures AllRenderable(ts)
    decreases |ts|
  {
    if ts != [] {
      assert forall k :: 0 <= k < |ts[1..]| ==> ts[1..][k] == ts[k + 1];
      AllRenderableEach(ts[1..]);
    }
  }

  lemma {:induction false} TokenizeRender(input: string, pos: nat, ts: seq<Token>)
    requires AllRenderable(ts)
    requires pos <= |input| && input[pos..] == Render(ts)
    ensures Tokenize(input, pos) == ts + [Token(EOF, "")]
    decreases |ts|
  {
    if ts == [] {
      TokenizeEmpty(input, pos);
    } else {
      var end := pos + 1 + |Spell(ts[0])|;
      TokenizeFirst(input, pos, ts, end);
      TokenizeStep(input, pos, ts[0], end);
      TokenizeRender(input, end, ts[1..]);
      AppendEof(ts);
    }
  }

  /** Rendering renderable tokens and scanning the text gives the tokens back,
      closed by the end-of-input token. */
  lemma LexRenderRoundTrip(ts: seq<Token>)
    requires forall k :: 0 <= k < |ts| ==> Renderable(ts[k])
    ensures Tokenize(Render(ts), 0) == ts + [Token(EOF, "")]
  {
    AllRenderableEach(ts);
    TokenizeRender(Render(ts), 0, ts);
  }
}

=== FILE: numbers.dfy ===
/** Decimal integer text: `std::stoi` as the parser uses it on integer
    literal tokens, and what it reads from signed and unsigned decimal
    spellings. */
module Numbers {
  import opened Wrappers
  import opened Lexer

  /** The range of the 32-bit `int` that `std::stoi` returns. */
  const IntMin: int := -0x8000_0000
  const IntMax: int := 0x7fff_ffff

  function DigitValue(c: char): (d: nat)
    requires IsDigit(c)
    ensures d < 10
  {
    (c as int) - ('0' as int)
  }

  predicate AllDigits(s: string) {
    forall k :: 0 <= k < |s| ==> IsDigit(s[k])
  }

  /** Folds the run of digits that starts at `i` into `acc`, most
      significant digit first; the run ends at the first non-digit. */
  function Accumulate(s: string, i: nat, acc: nat): nat
    decreases |s| - i
  {
    if i < |s| && IsDigit(s[i]) then Accumulate(s, i + 1, acc * 10 + DigitValue(s[i])) else acc
  }

  /** The `out_of_range` check of `std::stoi`. */
  function InRange(v: int): (r: Result<int>) {
    if IntMin <= v <= IntMax then Success(v) else Failure("stoi: out of range")
  }

  /** `std::stoi`: an optional sign, then the longest run of digits, which
      must not be empty; characters after the run are ignored. No digit
      where one is needed (`invalid_argument`) and a value outside `int`
      (`out_of_range`) are exceptions that end the process. */
  function StoI(s: string): (r: Result<int>) {
    if |s| > 0 && IsDigit(s[0]) then InRange(Accumulate(s, 0, 0))
    else if |s| > 1 && (s[0] == '-' || s[0] == '+') && IsDigit(s[1]) then
      var magnitude: int := Accumulate(s, 1, 0);
      InRange(if s[0] == '-' then -magnitude else magnitude)
    else Failure("stoi: no conversion")
  }

  function DigitChar(d: nat): (c: char)
    requires d < 10
    ensures IsDigit(c) && DigitValue(c) == d
  {
    (('0' as int) + d) as char
  }

  /** The decimal spelling of a natural number, without leading zeros. */
  function NatToString(n: nat): (s: string)
    ensures |s| > 0 && AllDigits(s)
    ensures |s| > 1 ==> s[0] != '0'
  {
    if n < 10 then [DigitChar(n)] else NatToString(n / 10) + [DigitChar(n % 10)]
  }

  /** Appending a digit to a run of digits multiplies its value by ten
      and adds the digit. */
  lemma {:induction false} AccumulateAppend(p: string, c: char, i: nat, acc: nat)
    requires AllDigits(p) && IsDigit(c) && i <= |p|
    ensures Accumulate(p + [c], i, acc) == Accumulate(p, i, acc) * 10 + DigitValue(c)
    decreases |p| - i
  {
    var s := p + [c];
    assert s[i] == if i < |p| then p[i] else c;
    if i < |p| {
      AccumulateAppend(p, c, i + 1, acc * 10 + DigitValue(p[i]));
    } else {
      assert Accumulate(s, i + 1, acc * 10 + DigitValue(c)) == acc * 10 + DigitValue(c);
    }
  }

  /** The digits of `p` are the whole run when a non-digit (or nothing)
      follows them. */
  lemma {:induction false} AccumulateStops(p: string, rest: string, i: nat, acc: nat)
    requires AllDigits(p) && i <= |p| && (rest == [] || !IsDigit(rest[0]))
    ensures Accumulate(p + rest, i, acc) == Accumulate(p, i, acc)
    decreases |p| - i
  {
    var s := p + rest;
    if i < |p| {
      assert s[i] == p[i];
      AccumulateStops(p, rest, i + 1, acc * 10 + DigitValue(p[i]));
    } else if i < |s| {
      assert s[i] == rest[0];
    }
  }

  lemma {:induction false} AccumulateNatToString(n: nat)
    ensures Accumulate(NatToString(n), 0, 0) == n
  {
    if n < 10 {
      var s := NatToString(n);
      assert Accumulate(s, 1, DigitValue(s[0])) == n;
    } else {
      AccumulateNatToString(n / 10);
      AccumulateAppend(NatToString(n / 10), DigitChar(n % 10), 0, 0);
    }
  }

  /** `std::stoi` reads back what `NatToString` writes, whatever non-digit
      text follows it, as long as the number fits in an `int`. */
  lemma StoIReadsNatToString(n: nat, rest: string)
    requires n <= IntMax && (rest == [] || !IsDigit(rest[0]))
    ensures StoI(NatToString(n) + rest) == Success(n)
  {
    var s := NatToString(n);
    AccumulateNatToString(n);
    AccumulateStops(s, rest, 0, 0);
    assert (s + rest)[0] == s[0];
  }

  /** Beyond `int`, the same text is `out_of_range`. */
  lemma StoIOutOfRange(n: nat)
    requires n > IntMax
    ensures StoI(NatToString(n)).Failure?
  {
    AccumulateNatToString(n);
    assert NatToString(n) + [] == NatToString(n);
  }

  /** A sign in front of the digits moves the run one place on. */
  lemma {:induction false} AccumulateAfterSign(c: char, p: string, i: nat, acc: nat)
    requires i <= |p|
    ensures Accumulate([c] + p, i + 1, acc) == Accumulate(p, i, acc)
    decreases |p| - i
  {
    var s := [c] + p;
    if i < |p| {
      assert s[i + 1] == p[i];
      if IsDigit(p[i]) {
        AccumulateAfterSign(c, p, i + 1, acc * 10 + DigitValue(p[i]));
      }
    }
  }

  /** `-` and the spelling of `n` read back as `-n`, down to `INT_MIN`. */
  lemma StoINegative(n: nat)
    requires n <= -IntMin
    ensures StoI("-" + NatToString(n)) == Success(-(n as int))
  {
    var s := NatToString(n);
    AccumulateNatToString(n);
    AccumulateAfterSign('-', s, 0, 0);
    assert ("-" + s)[1] == s[0] && "-" + s == ['-'] + s;
  }

  /** Below `INT_MIN` the negative spelling is `out_of_range`. */
  lemma StoINegativeOutOfRange(n: nat)
    requires n > -IntMin
    ensures StoI("-" + NatToString(n)).Failure?
  {
    var s := NatToString(n);
    AccumulateNatToString(n);
    AccumulateAfterSign('-', s, 0, 0);
    assert ("-" + s)[1] == s[0] && "-" + s == ['-'] + s;
  }

  /** A `+` sign changes nothing: `+n` reads back as `n` up to `INT_MAX`. */
  lemma StoIPlusSign(n: nat)
    requires n <= IntMax
    ensures StoI("+" + NatToString(n)) == Success(n)
  {
    var s := NatToString(n);
    AccumulateNatToString(n);
    AccumulateAfterSign('+', s, 0, 0);
    assert ("+" + s)[1] == s[0] && "+" + s == ['+'] + s;
  }

  lemma StoINatToString(n: nat)
    requires n <= IntMax
    ensures StoI(NatToString(n)) == Success(n)
  {
    StoIReadsNatToString(n, []);
    assert NatToString(n) + [] == NatToString(n);
  }
}

=== FILE: parser.dfy ===
/** The recursive-descent parser of parser.cpp.

    Every `FileParser` member that moves the cursor `index` becomes a pure
    function from the token vector and a cursor to either the node it builds
    and the cursor it leaves (`Parsed`) or the diagnostic it would print
    before exiting (`Failure`). Reading `tokens[index]` beyond the end of the
    vector is undefined behaviour in the program; here it is a `Failure`.
    `modName` is the module name of the file being parsed, the value the
    program reads from `pathToModule[path]`. */
module Parser {
  import opened Wrappers
  import opened Tokens
  import opened Ast
  import Numbers

  /** A parse result: what was built, and the cursor after it. */
  datatype Parsed<+T> = Parsed(item: T, next: nat)

  // ---------------------------------------------------------------------
  // Cursor primitives: eof, expect, expectConsume

  /** The diagnostic for reading `tokens[index]` beyond the vector. */
  const PastEnd: string := "token read past the end of the stream"

  /** The token under the cursor exists and has the given kind: the test
      `expect` performs (see `ExpectConsumeIs`), which the parsing functions
      below inline. */
  predicate Is(ts: seq<Token>, i: nat, kind: TokenKind) {
    i < |ts| && ts[i].kind == kind
  }

  /** `eof`: the token under the cursor is the end-of-input token. */
  function AtEof(ts: seq<Token>, i: nat): (r: Result<bool>)
    ensures r.Success? <==> i < |ts|
    ensures r.Success? ==> (r.value <==> ts[i].kind == EOF)
  {
    if i < |ts| then Success(ts[i].kind == EOF) else Failure(PastEnd)
  }

  /** `expect`: fatal at end of input or when the kind differs. */
  function Expect(ts: seq<Token>, i: nat, kind: TokenKind, message: string): (r: Result<Token>)
    ensures r.Success? ==> i < |ts| && ts[i].kind == kind && r.value == ts[i]
  {
    var atEnd :- AtEof(ts, i);
    if atEnd || ts[i].kind != kind then Failure(message) else Success(ts[i])
  }

  /** `expectConsume`: on success returns the token under the cursor and
      advances the cursor by exactly one. */
  function ExpectConsume(ts: seq<Token>, i: nat, kind: TokenKind, message: string): (r: Result<Parsed<Token>>)
    ensures r.Success? ==> i < |ts| && ts[i].kind == kind && r.value == Parsed(ts[i], i + 1)
  {
    var t :- Expect(ts, i, kind, message);
    Success(Parsed(t, i + 1))
  }

  /** `expectConsume` succeeds exactly when the token under the cursor has
      the expected kind and is not the end-of-input token: even a request
      for `EOF` fails there, since `expect` tests `eof()` first. */
  lemma ExpectConsumeIs(ts: seq<Token>, i: nat, kind: TokenKind, message: string)
    ensures ExpectConsume(ts, i, kind, message).Success? <==> Is(ts, i, kind) && kind != EOF
    ensures ExpectConsume(ts, i, kind, message).Failure? ==> ExpectConsume(ts, i, kind, message).error == (if i < |ts| then message else PastEnd)
  {
  }

  // ---------------------------------------------------------------------
  // Types

  /** `isBuiltInType`: the fourteen names the language predefines. */
  predicate IsBuiltinType(name: string) {
    name in {"i64", "u64", "i32", "u32", "i16", "u16", "i8", "u8", "f64", "f32", "bool", "void", "string", "char"}
  }

  /** Where the run of `*` tokens that starts at `i` ends: the cursor
      after the sigil loop of `parseType`. */
  function SigilsEnd(ts: seq<Token>, i: nat): (j: nat)
    requires i <= |ts|
    ensures i <= j <= |ts|
    decreases |ts| - i
  {
    if i < |ts| && ts[i].kind == Pointer then SigilsEnd(ts, i + 1) else i
  }

  /** `parseType`: the `while` loop moves over the leading `*` sigils,
      counting them into the pointer level; then the first other token
      selects `[T; n]`, `m:N`, or a bare name that is a builtin type or
      else a struct of the current module. */
  function ParseType(ts: seq<Token>, i: nat, modName: string): (r: Result<Parsed<TypeExpr>>)
    requires i <= |ts|
    ensures r.Success? ==> i < r.value.next <= |ts|
    decreases |ts| - i, 1
  {
    ParseTypeBody(ts, i, SigilsEnd(ts, i), modName)
  }

  /** What `parseType` does once its sigil loop has moved from `start` to
      `i`: the pointer level is the number of sigils passed. */
  function ParseTypeBody(ts: seq<Token>, start: nat, i: nat, modName: string): (r: Result<Parsed<TypeExpr>>)
    requires start <= i <= |ts|
    ensures r.Success? ==> i < r.value.next <= |ts|
    decreases |ts| - i, 0
  {
    if |ts| <= i then Failure(PastEnd)
    else if ts[i].kind == LeftSquareBracket then ParseArrayType(ts, i + 1, i - start, modName)
    else ParseNamedType(ts, i, i - start, modName)
  }

  /** `[T; n]` after its `[`: the element type, then its size. */
  function ParseArrayType(ts: seq<Token>, i: nat, level: nat, modName: string): (r: Result<Parsed<TypeExpr>>)
    requires i <= |ts|
    ensures r.Success? ==> i < r.value.next <= |ts|
    decreases |ts| - i, 2
  {
    var element :- ParseType(ts, i, modName);
    ParseArraySize(ts, element.next, element.item, level)
  }

  /** The `; n ]` that closes an array type; `n` is read with `stoi`. */
  function ParseArraySize(ts: seq<Token>, k: nat, element: TypeExpr, level: nat): (r: Result<Parsed<TypeExpr>>)
    ensures r.Success? ==> k + 3 == r.value.next <= |ts|
    ensures r.Success? <==> Is(ts, k, Semicolon) && Is(ts, k + 1, IntLiteral) && Numbers.StoI(ts[k + 1].value).Success? && Is(ts, k + 2, RightSquareBracket)
    ensures r.Success? ==> r.value.item == ArrayOf(element, Numbers.StoI(ts[k + 1].value).value, level)
  {
    if !Is(ts, k, Semicolon) then Failure("Expected semicolon in array type")
    else if !Is(ts, k + 1, IntLiteral) then Failure("Expected array size")
    else
      var size :- Numbers.StoI(ts[k + 1].value);
      if !Is(ts, k + 2, RightSquareBracket) then Failure("Expected closing bracket")
      else Success(Parsed(ArrayOf(element, size, level), k + 3))
  }

  /** A type name: `m:N` is struct `N` of module `m`; a bare builtin name is
      a plain type; any other bare name is a struct of the current module. */
  function ParseNamedType(ts: seq<Token>, i: nat, level: nat, modName: string): (r: Result<Parsed<TypeExpr>>)
    requires i <= |ts|
    ensures r.Success? ==> i < r.value.next <= |ts|
    ensures r.Success? <==> Is(ts, i, Identifier) && i + 1 < |ts| && (ts[i + 1].kind == Colon ==> Is(ts, i + 2, Identifier))
    ensures r.Success? && ts[i + 1].kind == Colon ==> r.value == Parsed(StructRef(ts[i].value, ts[i + 2].value, level), i + 3)
    ensures r.Success? && ts[i + 1].kind != Colon && IsBuiltinType(ts[i].value) ==> r.value == Parsed(Named(ts[i].value, level), i + 1)
    ensures r.Success? && ts[i + 1].kind != Colon && !IsBuiltinType(ts[i].value) ==> r.value == Parsed(StructRef(modName, ts[i].value, level), i + 1)
  {
    if !Is(ts, i, Identifier) then Failure("Expected type identifier")
    else if |ts| <= i + 1 then Failure(PastEnd)
    else if ts[i + 1].kind == Colon then
      if !Is(ts, i + 2, Identifier) then Failure("Expected type identifier")
      else Success(Parsed(StructRef(ts[i].value, ts[i + 2].value, level), i + 3))
    else if !IsBuiltinType(ts[i].value) then Success(Parsed(StructRef(modName, ts[i].value, level), i + 1))
    else Success(Parsed(Named(ts[i].value, level), i + 1))
  }

  // ---------------------------------------------------------------------
  // Expressions

  /** `getPrecedence`: the binary operator table; -1 ends an expression. */
  function Prec(kind: TokenKind): (p: int)
    ensures -1 <= p <= 5
  {
    if kind == Mul || kind == Div || kind == Mod then 5
    else if kind == Plus || kind == Minus then 4
    else if kind == Less || kind == Greater || kind == LessEqual || kind == GreaterEqual then 3
    else if kind == NotEqual || kind == Equal then 2
    else if kind == And then 1
    else if kind == Or then 0
    else -1
  }

  predicate IsPrefixOperator(kind: TokenKind) {
    kind == Reference || kind == Not || kind == Minus || kind == Pointer
  }

  /** `parseExpression(precedence)`: a unary operand, then the climbing loop. */
  function ParseExpression(ts: seq<Token>, i: nat, minPrec: int, modName: string): (r: Result<Parsed<Node>>)
    requires i <= |ts|
    ensures r.Success? ==> i < r.value.next <= |ts|
    decreases |ts| - i, 4
  {
    var left :- ParseUnary(ts, i, modName);
    Climb(ts, left.next, minPrec, left.item, modName)
  }

  /** The loop of `parseExpression`: while the operator under the cursor
      binds at least `minPrec`, consume it, parse the right operand one
      level tighter, and fold it into the left operand. */
  function Climb(ts: seq<Token>, i: nat, minPrec: int, left: Node, modName: string): (r: Result<Parsed<Node>>)
    requires i <= |ts|
    ensures r.Success? ==> i <= r.value.next < |ts|
    ensures r.Success? ==> Prec(ts[r.value.next].kind) < minPrec
    decreases |ts| - i, 0
  {
    if |ts| <= i then Failure(PastEnd)
    else if Prec(ts[i].kind) < minPrec then Success(Parsed(left, i))
    else
      var right :- ParseExpression(ts, i + 1, Prec(ts[i].kind) + 1, modName);
      Climb(ts, right.next, minPrec, Binary(ts[i].kind, left, right.item), modName)
  }

  /** `parseUnary`: prefix `&`, `!`, `-`, `*` each wrap the next unary. */
  function ParseUnary(ts: seq<Token>, i: nat, modName: string): (r: Result<Parsed<Node>>)
    requires i <= |ts|
    ensures r.Success? ==> i < r.value.next <= |ts|
    decreases |ts| - i, 3
  {
    if |ts| <= i then Failure(PastEnd)
    else if IsPrefixOperator(ts[i].kind) then
      var operand :- ParseUnary(ts, i + 1, modName);
      Success(Parsed(Unary(ts[i].kind, operand.item), operand.next))
    else
      ParsePrimary(ts, i, modName)
  }

  /** `parsePrimary`: literals, `@` specials, parentheses, identifier-led
      forms and array literals; any other token is consumed and yields the
      null node. */
  function ParsePrimary(ts: seq<Token>, i: nat, modName: string): (r: Result<Parsed<Node>>)
    requires i <= |ts|
    ensures r.Success? ==> i < r.value.next <= |ts|
    decreases |ts| - i, 2
  {
    if |ts| <= i then Failure(PastEnd)
    else if ts[i].kind == IntLiteral then
      var v :- Numbers.StoI(ts[i].value);
      Success(Parsed(IntLit(v), i + 1))
    else if ts[i].kind == StringLiteral then
      Success(Parsed(StrLit(ts[i].value), i + 1))
    else if ts[i].kind == BoolLiteral then
      Success(Parsed(BoolLit(ts[i].value == "true"), i + 1))
    else if ts[i].kind == CharLiteral then
      // `value[0]` of an empty std::string is the terminating NUL
      Success(Parsed(CharLit(if |ts[i].value| == 0 then 0 as char else ts[i].value[0]), i + 1))
    else if ts[i].kind == At then
      ParseSpecial(ts, i + 1, modName)
    else if ts[i].kind == LeftParen then
      var inner :- ParseExpression(ts, i + 1, 0, modName);
      if !Is(ts, inner.next, RightParen) then Failure("Expected ) after parsing expression")
      else Success(Parsed(inner.item, inner.next + 1))
    else if ts[i].kind == Identifier then
      ParseIdentifierForm(ts, i, modName)
    else if ts[i].kind == LeftSquareBracket then
      var elements :- ParseArrayElements(ts, i + 1, modName);
      Success(Parsed(ArrayLit(elements.item), elements.next + 1))
    else
      Success(Parsed(Missing, i + 1))
  }

  /** The identifier case of `parsePrimary`: `N{..}` and `N(..)` with the
      current module, `m:N(..)` and `m:N{..}` with module `m`, otherwise a
      variable followed by its access path (after `m:N` the variable is
      named `m`, and `N` is dropped). */
  function ParseIdentifierForm(ts: seq<Token>, i: nat, modName: string): (r: Result<Parsed<Node>>)
    requires Is(ts, i, Identifier)
    ensures r.Success? ==> i + 1 < |ts| && i + 1 <= r.value.next <= |ts|
    ensures r.Success? && ts[i + 1].kind == LeftBrace ==> r.value.item.StructLit? && r.value.item.moduleName == modName
    ensures r.Success? && ts[i + 1].kind == LeftParen ==> r.value.item.Call? && r.value.item.moduleName == modName
    ensures r.Success? && ts[i + 1].kind == Colon ==> i + 3 < |ts|
    ensures r.Success? && ts[i + 1].kind == Colon && ts[i + 3].kind == LeftParen ==>
      r.value.item.Call? && r.value.item.moduleName == ts[i].value
    ensures r.Success? && ts[i + 1].kind == Colon && ts[i + 3].kind == LeftBrace ==>
      r.value.item.StructLit? && r.value.item.moduleName == ts[i].value
    ensures r.Success? && ts[i + 1].kind == Colon && ts[i + 3].kind !in {LeftParen, LeftBrace} ==>
      (r.value.item.Var? || r.value.item.Access?) && r.value.item.name == ts[i].value
    ensures r.Success? && ts[i + 1].kind !in {LeftBrace, LeftParen, Colon} ==>
      (r.value.item.Var? || r.value.item.Access?) && r.value.item.name == ts[i].value
    decreases |ts| - i, 1
  {
    if |ts| <= i + 1 then Failure(PastEnd)
    else if ts[i + 1].kind == LeftBrace then ParseStructLiteral(ts, i, modName, modName)
    else if ts[i + 1].kind == LeftParen then ParseFunctionCall(ts, i, modName, modName)
    else if ts[i + 1].kind == Colon then
      if !Is(ts, i + 2, Identifier) then Failure("Expected struct or function name.")
      else if |ts| <= i + 3 then Failure(PastEnd)
      else if ts[i + 3].kind == LeftParen then ParseFunctionCall(ts, i + 2, ts[i].value, modName)
      else if ts[i + 3].kind == LeftBrace then ParseStructLiteral(ts, i + 2, ts[i].value, modName)
      else AccessPath(ts, i + 3, ts[i].value, modName)
    else AccessPath(ts, i + 1, ts[i].value, modName)
  }

  /** A variable and the index/field steps that follow it; without steps
      it is a plain variable. */
  function AccessPath(ts: seq<Token>, i: nat, name: string, modName: string): (r: Result<Parsed<Node>>)
    requires i <= |ts|
    ensures r.Success? ==> i <= r.value.next <= |ts|
    ensures r.Success? ==> r.value.item.Var? || (r.value.item.Access? && |r.value.item.steps| > 0)
    ensures r.Success? ==> r.value.item.name == name
    decreases |ts| - i, 1
  {
    var steps :- ParseSteps(ts, i, modName);
    if |steps.item| > 0 then Success(Parsed(Access(name, steps.item), steps.next))
    else Success(Parsed(Var(name), steps.next))
  }

  /** The loop over `[expr]` and `.field` steps in `parsePrimary`. */
  function ParseSteps(ts: seq<Token>, i: nat, modName: string): (r: Result<Parsed<seq<Step>>>)
    requires i <= |ts|
    ensures r.Success? ==> i <= r.value.next < |ts|
    ensures r.Success? ==> ts[r.value.next].kind != LeftSquareBracket && ts[r.value.next].kind != Dot
    decreases |ts| - i, 0
  {
    if |ts| <= i then Failure(PastEnd)
    else if ts[i].kind == LeftSquareBracket then
      var index :- ParseExpression(ts, i + 1, 0, modName);
      if !Is(ts, index.next, RightSquareBracket) then Failure("Expected right square bracket")
      else
        var rest :- ParseSteps(ts, index.next + 1, modName);
        Success(Parsed([Index(index.item)] + rest.item, rest.next))
    else if ts[i].kind == Dot then
      if !Is(ts, i + 1, Identifier) then Failure("Expected Identifier")
      else
        var rest :- ParseSteps(ts, i + 2, modName);
        Success(Parsed([Field(ts[i + 1].value)] + rest.item, rest.next))
    else
      Success(Parsed([], i))
  }

  /** The do-while loop of an array literal: at least one element, one
      comma skipped after each, stopping in front of `]`. The `]` itself
      is stepped over unchecked. */
  function ParseArrayElements(ts: seq<Token>, i: nat, modName: string): (r: Result<Parsed<seq<Node>>>)
    requires i <= |ts|
    ensures r.Success? ==> i < r.value.next < |ts| && ts[r.value.next].kind == RightSquareBracket
    ensures r.Success? ==> |r.value.item| > 0
    decreases |ts| - i, 5
  {
    var element :- ParseExpression(ts, i, 0, modName);
    if |ts| <= element.next then Failure(PastEnd)
    else
      var j := if ts[element.next].kind == Comma then element.next + 1 else element.next;
      if |ts| <= j then Failure(PastEnd)
      else if ts[j].kind == RightSquareBracket then Success(Parsed([element.item], j))
      else
        var rest :- ParseArrayElements(ts, j, modName);
        Success(Parsed([element.item] + rest.item, rest.next))
  }

  /** `parseFunctionCall(module)`: `name(args)` called in module `callee`. */
  function ParseFunctionCall(ts: seq<Token>, i: nat, callee: string, modName: string): (r: Result<Parsed<Node>>)
    requires i <= |ts|
    ensures r.Success? ==> i < r.value.next <= |ts|
    ensures r.Success? ==> r.value.item.Call? && r.value.item.moduleName == callee
    decreases |ts| - i, 0
  {
    if !Is(ts, i, Identifier) then Failure("Provide an identifier for the function call")
    else if !Is(ts, i + 1, LeftParen) then Failure("Expected opening function paren")
    else
      var args :- ParseArguments(ts, i + 2, modName);
      if !Is(ts, args.next, RightParen) then Failure("Expected closing function paren")
      else Success(Parsed(Call(callee, ts[i].value, args.item), args.next + 1))
  }

  /** The argument loop: commas are skipped wherever they appear; the loop
      stops in front of `)`. */
  function ParseArguments(ts: seq<Token>, i: nat, modName: string): (r: Result<Parsed<seq<Node>>>)
    requires i <= |ts|
    ensures r.Success? ==> i <= r.value.next < |ts| && ts[r.value.next].kind == RightParen
    decreases |ts| - i, 5
  {
    if |ts| <= i then Failure(PastEnd)
    else if ts[i].kind == RightParen then Success(Parsed([], i))
    else if ts[i].kind == Comma then ParseArguments(ts, i + 1, modName)
    else
      var arg :- ParseExpression(ts, i, 0, modName);
      var rest :- ParseArguments(ts, arg.next, modName);
      Success(Parsed([arg.item] + rest.item, rest.next))
  }

  /** `parseStructLiteral(module)`: `Name { f: e, ... }`. */
  function ParseStructLiteral(ts: seq<Token>, i: nat, structModule: string, modName: string): (r: Result<Parsed<Node>>)
    requires i <= |ts|
    ensures r.Success? ==> i < r.value.next <= |ts|
    ensures r.Success? ==> r.value.item.StructLit? && r.value.item.moduleName == structModule
    decreases |ts| - i, 0
  {
    if !Is(ts, i, Identifier) then Failure("Expected ident")
    else if !Is(ts, i + 1, LeftBrace) then Failure("Expected left square bracket")
    else
      var fields :- ParseFieldInits(ts, i + 2, modName);
      if !Is(ts, fields.next, RightBrace) then Failure("Expected left square bracket")
      else Success(Parsed(StructLit(structModule, ts[i].value, fields.item), fields.next + 1))
  }

  /** The field loop of a struct literal: `name : expr` with an optional comma. */
  function ParseFieldInits(ts: seq<Token>, i: nat, modName: string): (r: Result<Parsed<seq<FieldInit>>>)
    requires i <= |ts|
    ensures r.Success? ==> i <= r.value.next < |ts| && ts[r.value.next].kind == RightBrace
    decreases |ts| - i, 0
  {
    if |ts| <= i then Failure(PastEnd)
    else if ts[i].kind == RightBrace then Success(Parsed([], i))
    else if !Is(ts, i, Identifier) then Failure("")
    else if !Is(ts, i + 1, Colon) then Failure("Expected colon after name")
    else
      var value :- ParseExpression(ts, i + 2, 0, modName);
      if |ts| <= value.next then Failure(PastEnd)
      else
        var j := if ts[value.next].kind == Comma then value.next + 1 else value.next;
        var rest :- ParseFieldInits(ts, j, modName);
        Success(Parsed([FieldInit(ts[i].value, value.item)] + rest.item, rest.next))
  }

  /** `parseSpecial`, entered after `@`: `cast(type, expr)`; any other name
      consumes its `(` and yields the null node. */
  function ParseSpecial(ts: seq<Token>, i: nat, modName: string): (r: Result<Parsed<Node>>)
    requires i <= |ts|
    ensures r.Success? ==> i < r.value.next <= |ts|
    decreases |ts| - i, 0
  {
    if |ts| <= i then Failure(PastEnd)
    else if !Is(ts, i + 1, LeftParen) then Failure("Expected opening paren")
    else if ts[i].value == "cast" then
      var target :- ParseType(ts, i + 2, modName);
      if !Is(ts, target.next, Comma) then Failure("Expected comma")
      else
        var operand :- ParseExpression(ts, target.next + 1, 0, modName);
        if !Is(ts, operand.next, RightParen) then Failure("Expected closing paren")
        else Success(Parsed(Cast(target.item, operand.item), operand.next + 1))
    else
      Success(Parsed(Missing, i + 2))
  }

  // ---------------------------------------------------------------------
  // Statements

  /** `parseAssign`: `lhs = rhs;`. */
  function ParseAssign(ts: seq<Token>, i: nat, modName: string): (r: Result<Parsed<Node>>)
    requires i <= |ts|
    ensures r.Success? ==> i < r.value.next <= |ts| && r.value.item.Assignment?
    ensures r.Success? ==> ts[r.value.next - 1].kind == Semicolon
    ensures r.Success? ==>
      var lhs := ParseExpression(ts, i, 0, modName);
      lhs.Success? && lhs.value.item == r.value.item.lhs && Is(ts, lhs.value.next, Assign) &&
      ParseExpression(ts, lhs.value.next + 1, 0, modName) == Success(Parsed(r.value.item.rhs, r.value.next - 1))
  {
    var lhs :- ParseExpression(ts, i, 0, modName);
    if !Is(ts, lhs.next, Assign) then Failure("")
    else
      var rhs :- ParseExpression(ts, lhs.next + 1, 0, modName);
      if !Is(ts, rhs.next, Semicolon) then Failure("Expect semicolon")
      else Success(Parsed(Assignment(lhs.item, rhs.item), rhs.next + 1))
  }

  /** The return case of `parseLocal`: `return expr;`. */
  function ParseReturn(ts: seq<Token>, i: nat, modName: string): (r: Result<Parsed<Node>>)
    requires i <= |ts|
    ensures r.Success? ==> i < r.value.next <= |ts| && r.value.item.Return?
    ensures r.Success? ==> ts[i].kind == KeywordReturn
  {
    if !Is(ts, i, KeywordReturn) then Failure("Expected the return keyword")
    else
      var e :- ParseExpression(ts, i + 1, 0, modName);
      if !Is(ts, e.next, Semicolon) then Failure("Expected semicolon after return")
      else Success(Parsed(Return(e.item), e.next + 1))
  }

  /** `parseVariableDecl`: `let name : type = expr;`. */
  function ParseVariableDecl(ts: seq<Token>, i: nat, modName: string): (r: Result<Parsed<Node>>)
    requires i <= |ts|
    ensures r.Success? ==> i < r.value.next <= |ts| && r.value.item.VarDecl?
  {
    if !Is(ts, i, KeywordLet) then Failure("")
    else if !Is(ts, i + 1, Identifier) then Failure("Expected variable name")
    else if !Is(ts, i + 2, Colon) then Failure("Expect colon for variable type")
    else
      var ty :- ParseType(ts, i + 3, modName);
      if !Is(ts, ty.next, Assign) then Failure("Expect assign eq")
      else
        var init :- ParseExpression(ts, ty.next + 1, 0, modName);
        if !Is(ts, init.next, Semicolon) then Failure("Expected semicolon")
        else Success(Parsed(VarDecl(ts[i + 1].value, ty.item, init.item), init.next + 1))
  }

  /** `parseBlock`: `{ statements }`, yielding the statements. */
  function ParseBlock(ts: seq<Token>, i: nat, modName: string): (r: Result<Parsed<seq<Node>>>)
    requires i <= |ts|
    ensures r.Success? ==> i < r.value.next <= |ts|
    ensures r.Success? ==> ts[i].kind == LeftBrace && ts[r.value.next - 1].kind == RightBrace
    decreases |ts| - i, 1
  {
    if !Is(ts, i, LeftBrace) then Failure("Expected block brace")
    else
      var body :- ParseStatements(ts, i + 1, modName);
      if !Is(ts, body.next, RightBrace) then Failure("")
      else Success(Parsed(body.item, body.next + 1))
  }

  /** The loop of `parseBlock`: statements until `}`. */
  function ParseStatements(ts: seq<Token>, i: nat, modName: string): (r: Result<Parsed<seq<Node>>>)
    requires i <= |ts|
    ensures r.Success? ==> i <= r.value.next < |ts| && ts[r.value.next].kind == RightBrace
    decreases |ts| - i, 6
  {
    if |ts| <= i then Failure(PastEnd)
    else if ts[i].kind == RightBrace then Success(Parsed([], i))
    else
      var stmt :- ParseLocal(ts, i, modName);
      var rest :- ParseStatements(ts, stmt.next, modName);
      Success(Parsed([stmt.item] + rest.item, rest.next))
  }

  /** A call statement `name(args);` whose name starts at `i`. */
  function ParseCallStatement(ts: seq<Token>, i: nat, callee: string, modName: string): (r: Result<Parsed<Node>>)
    requires i <= |ts|
    ensures r.Success? ==> i < r.value.next <= |ts| && r.value.item.Call?
    decreases |ts| - i, 1
  {
    var call :- ParseFunctionCall(ts, i, callee, modName);
    if !Is(ts, call.next, Semicolon) then Failure("Expected semicolon")
    else Success(Parsed(call.item, call.next + 1))
  }

  /** `parseLocal`: statement dispatch on the token under the cursor (and,
      for an identifier, the one after it). An identifier followed by none
      of `(`, `=`, `[`, `.`, `:` falls through into the return case, whose
      `expectConsume` then fails. */
  function ParseLocal(ts: seq<Token>, i: nat, modName: string): (r: Result<Parsed<Node>>)
    requires i <= |ts|
    ensures r.Success? ==> i < r.value.next <= |ts|
    decreases |ts| - i, 5
  {
    if |ts| <= i then Failure(PastEnd)
    else if ts[i].kind == Pointer then ParseAssign(ts, i, modName)
    else if ts[i].kind == Identifier then
      if |ts| <= i + 1 then Failure(PastEnd)
      else if ts[i + 1].kind == LeftParen then ParseCallStatement(ts, i, modName, modName)
      else if ts[i + 1].kind in {Assign, LeftSquareBracket, Dot} then ParseAssign(ts, i, modName)
      else if ts[i + 1].kind == Colon then ParseCallStatement(ts, i + 2, ts[i].value, modName)
      else ParseReturn(ts, i, modName)
    else if ts[i].kind == KeywordReturn then ParseReturn(ts, i, modName)
    else if ts[i].kind == KeywordLet then ParseVariableDecl(ts, i, modName)
    else if ts[i].kind == LeftBrace then
      var block :- ParseBlock(ts, i, modName);
      Success(Parsed(Block(block.item), block.next))
    else if ts[i].kind == KeywordIf then ParseConditional(ts, i, modName)
    else if ts[i].kind == KeywordWhile then ParseWhile(ts, i, modName)
    else Failure("Did not match any of the options when parsing local")
  }

  /** `parseWhile`: `while cond { body }`. */
  function ParseWhile(ts: seq<Token>, i: nat, modName: string): (r: Result<Parsed<Node>>)
    requires i <= |ts|
    ensures r.Success? ==> i < r.value.next <= |ts| && r.value.item.While?
    decreases |ts| - i, 4
  {
    if !Is(ts, i, KeywordWhile) then Failure("")
    else
      var cond :- ParseExpression(ts, i + 1, 0, modName);
      var body :- ParseBlock(ts, cond.next, modName);
      Success(Parsed(While(cond.item, body.item), body.next))
  }

  /** `parseConditional`: the chain of arms. */
  function ParseConditional(ts: seq<Token>, i: nat, modName: string): (r: Result<Parsed<Node>>)
    requires i <= |ts|
    ensures r.Success? ==> i < r.value.next < |ts|
    ensures r.Success? ==> r.value.item.Conditional? && |r.value.item.arms| > 0
    ensures r.Success? ==> ts[r.value.next].kind != KeywordElse
    decreases |ts| - i, 4
  {
    var arms :- ParseArms(ts, i, modName);
    Success(Parsed(Conditional(arms.item), arms.next))
  }

  /** The head of one arm: `if cond` yields the condition; anything else
      (the arm after a bare `else`) yields none and consumes nothing. */
  function ParseArmHead(ts: seq<Token>, i: nat, modName: string): (r: Result<Parsed<Option<Node>>>)
    requires i <= |ts|
    ensures r.Success? ==> i <= r.value.next <= |ts|
    ensures r.Success? ==> i < |ts| && (r.value.item.Some? <==> ts[i].kind == KeywordIf)
    ensures r.Success? && r.value.item.None? ==> r.value.next == i
  {
    if |ts| <= i then Failure(PastEnd)
    else if ts[i].kind == KeywordIf then
      var cond :- ParseExpression(ts, i + 1, 0, modName);
      Success(Parsed(Some(cond.item), cond.next))
    else Success(Parsed(None, i))
  }

  /** One arm: its optional `if cond` head and its block. */
  function ParseArm(ts: seq<Token>, i: nat, modName: string): (r: Result<Parsed<Arm>>)
    requires i <= |ts|
    ensures r.Success? ==> i < r.value.next <= |ts|
    ensures r.Success? ==> (r.value.item.condition.Some? <==> ts[i].kind == KeywordIf)
    ensures r.Success? ==> ts[r.value.next - 1].kind == RightBrace
    decreases |ts| - i, 2
  {
    var head :- ParseArmHead(ts, i, modName);
    var block :- ParseBlock(ts, head.next, modName);
    Success(Parsed(Arm(head.item, block.item), block.next))
  }

  /** The do-while loop of `parseConditional`: parse one arm, then test the
      next token with `tokens[index++]`; on `else` continue after it, on
      anything else undo the increment, leaving that token unconsumed. */
  function ParseArms(ts: seq<Token>, i: nat, modName: string): (r: Result<Parsed<seq<Arm>>>)
    requires i <= |ts|
    ensures r.Success? ==> i < r.value.next < |ts| && |r.value.item| > 0
    ensures r.Success? ==> ts[r.value.next].kind != KeywordElse
    decreases |ts| - i, 3
  {
    var arm :- ParseArm(ts, i, modName);
    if |ts| <= arm.next then Failure(PastEnd)
    else if ts[arm.next].kind == KeywordElse then
      var rest :- ParseArms(ts, arm.next + 1, modName);
      Success(Parsed([arm.item] + rest.item, rest.next))
    else
      Success(Parsed([arm.item], arm.next))
  }

  // ---------------------------------------------------------------------
  // Globals

  /** The parameter loop of `parseFunction`: `name : type` pairs, commas
      skipped wherever they appear, stopping in front of `)`. */
  function ParseParams(ts: seq<Token>, i: nat, modName: string): (r: Result<Parsed<seq<Binding>>>)
    requires i <= |ts|
    ensures r.Success? ==> i <= r.value.next < |ts| && ts[r.value.next].kind == RightParen
    decreases |ts| - i
  {
    if |ts| <= i then Failure(PastEnd)
    else if ts[i].kind == RightParen then Success(Parsed([], i))
    else if ts[i].kind == Comma then ParseParams(ts, i + 1, modName)
    else if !Is(ts, i, Identifier) then Failure("Expected variable name")
    else if !Is(ts, i + 1, Colon) then Failure("Expected colon after type")
    else
      var ty :- ParseType(ts, i + 2, modName);
      var rest :- ParseParams(ts, ty.next, modName);
      Success(Parsed([Binding(ts[i].value, ty.item)] + rest.item, rest.next))
  }

  /** `parseFunction`: `name :: (params) type` and an optional block. The
      return type must start with an identifier; a following `;` is not
      consumed. */
  function ParseFunction(ts: seq<Token>, i: nat, modName: string): (r: Result<Parsed<Node>>)
    requires i <= |ts|
    ensures r.Success? ==> i < r.value.next <= |ts|
    ensures r.Success? ==> r.value.item.FunctionDef? && r.value.item.moduleName == modName
  {
    if !Is(ts, i, Identifier) then Failure("Expected Global Identifier")
    else if !Is(ts, i + 1, Colon) || !Is(ts, i + 2, Colon) then Failure("Expected Global Definition (::)")
    else if !Is(ts, i + 3, LeftParen) then Failure("Expected opening function paren")
    else
      var params :- ParseParams(ts, i + 4, modName);
      var close := params.next;
      if !Is(ts, close, RightParen) then Failure("Expected closing function paren")
      else if !Is(ts, close + 1, Identifier) then Failure("Expected return type")
      else
        var ret :- ParseType(ts, close + 1, modName);
        if |ts| <= ret.next then Failure(PastEnd)
        else if ts[ret.next].kind == LeftBrace then
          var body :- ParseBlock(ts, ret.next, modName);
          Success(Parsed(FunctionDef(modName, ts[i].value, params.item, ret.item, Some(body.item)), body.next))
        else
          Success(Parsed(FunctionDef(modName, ts[i].value, params.item, ret.item, None), ret.next))
  }

  /** The field loop of `parseStruct`: `name : type` with an optional comma. */
  function ParseFieldDecls(ts: seq<Token>, i: nat, modName: string): (r: Result<Parsed<seq<Binding>>>)
    requires i <= |ts|
    ensures r.Success? ==> i <= r.value.next < |ts| && ts[r.value.next].kind == RightBrace
    decreases |ts| - i
  {
    if |ts| <= i then Failure(PastEnd)
    else if ts[i].kind == RightBrace then Success(Parsed([], i))
    else if !Is(ts, i, Identifier) then Failure("")
    else if !Is(ts, i + 1, Colon) then Failure("Expected colon after name")
    else
      var ty :- ParseType(ts, i + 2, modName);
      if |ts| <= ty.next then Failure(PastEnd)
      else
        var j := if ts[ty.next].kind == Comma then ty.next + 1 else ty.next;
        var rest :- ParseFieldDecls(ts, j, modName);
        Success(Parsed([Binding(ts[i].value, ty.item)] + rest.item, rest.next))
  }

  /** `parseStruct`: `name :: struct { fields }`. */
  function ParseStruct(ts: seq<Token>, i: nat, modName: string): (r: Result<Parsed<Node>>)
    requires i <= |ts|
    ensures r.Success? ==> i < r.value.next <= |ts|
    ensures r.Success? ==> r.value.item.StructDef? && r.value.item.moduleName == modName
  {
    if !Is(ts, i, Identifier) then Failure("")
    else if !Is(ts, i + 1, Colon) || !Is(ts, i + 2, Colon) then Failure("Expected colon after name")
    else if !Is(ts, i + 3, KeywordStruct) then Failure("")
    else if !Is(ts, i + 4, LeftBrace) then Failure("Expected colon after name")
    else
      var fields :- ParseFieldDecls(ts, i + 5, modName);
      if !Is(ts, fields.next, RightBrace) then Failure("Expected colon after name")
      else Success(Parsed(StructDef(modName, ts[i].value, fields.item), fields.next + 1))
  }

  /** `parseGlobal`: an identifier whose fourth token is `(` starts a
      function and one whose fourth token is `struct` starts a struct;
      nothing else is a global declaration. */
  function ParseGlobal(ts: seq<Token>, i: nat, modName: string): (r: Result<Parsed<Node>>)
    requires i <= |ts|
    ensures r.Success? ==> i < r.value.next <= |ts|
    ensures r.Success? ==> ts[i].kind == Identifier && i + 3 < |ts|
    ensures r.Success? ==> (r.value.item.FunctionDef? <==> ts[i + 3].kind == LeftParen)
    ensures r.Success? ==> (r.value.item.StructDef? <==> ts[i + 3].kind == KeywordStruct)
    ensures r.Success? ==> r.value.item.FunctionDef? || r.value.item.StructDef?
  {
    if |ts| <= i then Failure(PastEnd)
    else if ts[i].kind != Identifier then Failure("Did not match any of the options when parsing global")
    else if |ts| <= i + 3 then Failure(PastEnd)
    else if ts[i + 3].kind == LeftParen then ParseFunction(ts, i, modName)
    else if ts[i + 3].kind == KeywordStruct then ParseStruct(ts, i, modName)
    else Failure("Did not match any of the options when parsing global")
  }
}

=== FILE: roundtrip.dfy ===
/** The parser reads back what the grammar of `Spelling` writes: from the
    spelling of a type or an expression it rebuilds exactly that tree and
    stops right after it, provided the token that follows ends the
    construct. Precedence and left associativity of `parseExpression` are
    what make the grammar's parenthesisation the right one. */
module RoundTrip {
  import opened Wrappers
  import opened Tokens
  import opened Ast
  import opened Parser
  import opened Spelling
  import Numbers

  // ---------------------------------------------------------------------
  // Types

  /** The sigil loop of `parseType` stops right after the `*` tokens the
      spelling puts in front of a type body. */
  lemma {:induction false} SigilRun(ts: seq<Token>, i: nat, n: nat)
    requires SigilsAt(ts, i, n) && (i + n == |ts| || ts[i + n].kind != Pointer)
    ensures SigilsEnd(ts, i) == i + n
    decreases n
  {
    if n > 0 {
      assert ts[i].kind == Pointer;
      SigilRun(ts, i + 1, n - 1);
    }
  }

  /** `parseType` reads a printable type back from its spelling; a bare
      builtin name needs a following token that is not `:`, since `m:N`
      names a struct. */
  lemma {:induction false} TypeRoundTrip(ts: seq<Token>, i: nat, t: TypeExpr, modName: string)
    requires TypePrintable(t) && SpellsType(ts, i, t)
    requires t.Named? ==> i + TypeWidth(t) < |ts| && ts[i + TypeWidth(t)].kind != Colon
    ensures ParseType(ts, i, modName) == Success(Parsed(t, i + TypeWidth(t)))
    decreases t, 2
  {
    if t.Named? {
      NamedRoundTrip(ts, i, t, modName);
    } else if t.StructRef? {
      StructRoundTrip(ts, i, t, modName);
    } else {
      ArrayRoundTrip(ts, i, t, modName);
    }
  }

  lemma NamedRoundTrip(ts: seq<Token>, i: nat, t: TypeExpr, modName: string)
    requires t.Named? && TypePrintable(t) && SpellsType(ts, i, t)
    requires i + TypeWidth(t) < |ts| && ts[i + TypeWidth(t)].kind != Colon
    ensures ParseType(ts, i, modName) == Success(Parsed(t, i + TypeWidth(t)))
  {
    SigilRun(ts, i, t.pointerLevel);
    var j := SigilsEnd(ts, i);
    assert j == i + t.pointerLevel && j + 1 == i + TypeWidth(t);
    NamedTypeParses(ts, i, j, t.name, modName);
    assert Named(t.name, j - i) == t;
  }

  lemma StructRoundTrip(ts: seq<Token>, i: nat, t: TypeExpr, modName: string)
    requires t.StructRef? && SpellsType(ts, i, t)
    ensures ParseType(ts, i, modName) == Success(Parsed(t, i + TypeWidth(t)))
  {
    SigilRun(ts, i, t.pointerLevel);
    var j := SigilsEnd(ts, i);
    assert j == i + t.pointerLevel && j + 3 == i + TypeWidth(t);
    StructTypeParses(ts, i, j, t.moduleName, t.name, modName);
    assert StructRef(t.moduleName, t.name, j - i) == t;
  }

  lemma {:induction false} ArrayRoundTrip(ts: seq<Token>, i: nat, t: TypeExpr, modName: string)
    requires t.ArrayOf? && TypePrintable(t) && SpellsType(ts, i, t)
    ensures ParseType(ts, i, modName) == Success(Parsed(t, i + TypeWidth(t)))
    decreases t, 1
  {
    var j := i + t.pointerLevel;
    var k := j + 1 + TypeWidth(t.element);
    ArraySpelling(ts, i, t);
    TypeRoundTrip(ts, j + 1, t.element, modName);
    ArrayReads(ts, i, t, modName);
  }

  /** What the spelling of an array type puts where. */
  lemma ArraySpelling(ts: seq<Token>, i: nat, t: TypeExpr)
    requires t.ArrayOf? && TypePrintable(t) && SpellsType(ts, i, t)
    ensures var j := i + t.pointerLevel; var k := j + 1 + TypeWidth(t.element);
      SigilsAt(ts, i, t.pointerLevel) && Is(ts, j, LeftSquareBracket) && TypePrintable(t.element) && SpellsType(ts, j + 1, t.element) &&
      Is(ts, k, Semicolon) && Has(ts, k + 1, Token(IntLiteral, Decimal(t.size))) && Is(ts, k + 2, RightSquareBracket) &&
      k + 3 == i + TypeWidth(t)
  {
  }

  /** Sigils, `[`, an element type `parseType` reads, and `; n ]`. */
  lemma ArrayReads(ts: seq<Token>, i: nat, t: TypeExpr, modName: string)
    requires t.ArrayOf? && 0 <= t.size <= Numbers.IntMax
    requires var j := i + t.pointerLevel; var k := j + 1 + TypeWidth(t.element);
      SigilsAt(ts, i, t.pointerLevel) && Is(ts, j, LeftSquareBracket) &&
      ParseType(ts, j + 1, modName) == Success(Parsed(t.element, k)) &&
      Is(ts, k, Semicolon) && Has(ts, k + 1, Token(IntLiteral, Decimal(t.size))) && Is(ts, k + 2, RightSquareBracket) &&
      k + 3 == i + TypeWidth(t)
    ensures ParseType(ts, i, modName) == Success(Parsed(t, i + TypeWidth(t)))
  {
    var j := i + t.pointerLevel;
    var k := j + 1 + TypeWidth(t.element);
    SigilRun(ts, i, t.pointerLevel);
    Numbers.StoINatToString(t.size);
    ArraySuffixParses(ts, k, t.element, t.size, j - i);
    ArrayTypeParses(ts, i, j, t.element, k, t.size, modName);
  }

  lemma NamedTypeParses(ts: seq<Token>, start: nat, j: nat, name: string, modName: string)
    requires start <= j && IsBuiltinType(name) && Has(ts, j, Ident(name)) && j + 1 < |ts| && ts[j + 1].kind != Colon
    ensures ParseTypeBody(ts, start, j, modName) == Success(Parsed(Named(name, j - start), j + 1))
  {
  }

  lemma BareStructParses(ts: seq<Token>, start: nat, j: nat, name: string, modName: string)
    requires start <= j && !IsBuiltinType(name) && Has(ts, j, Ident(name)) && j + 1 < |ts| && ts[j + 1].kind != Colon
    ensures ParseTypeBody(ts, start, j, modName) == Success(Parsed(StructRef(modName, name, j - start), j + 1))
  {
  }

  /** A bare name that is not builtin, behind `n` sigils, is a struct of the
      module being parsed; the spelling grammar writes structs only as
      `m:N`, so this is the one struct form `TypeRoundTrip` does not cover. */
  lemma BareStructRoundTrip(ts: seq<Token>, i: nat, n: nat, name: string, modName: string)
    requires SigilsAt(ts, i, n) && Has(ts, i + n, Ident(name)) && !IsBuiltinType(name)
    requires i + n + 1 < |ts| && ts[i + n + 1].kind != Colon
    ensures ParseType(ts, i, modName) == Success(Parsed(StructRef(modName, name, n), i + n + 1))
  {
    SigilRun(ts, i, n);
    BareStructParses(ts, i, i + n, name, modName);
  }

  lemma StructTypeParses(ts: seq<Token>, start: nat, j: nat, m: string, name: string, modName: string)
    requires start <= j && Has(ts, j, Ident(m)) && Is(ts, j + 1, Colon) && Has(ts, j + 2, Ident(name))
    ensures ParseTypeBody(ts, start, j, modName) == Success(Parsed(StructRef(m, name, j - start), j + 3))
  {
  }

  /** `[`, an element type, then a `; n ]` suffix make an array type. */
  lemma ArrayTypeParses(ts: seq<Token>, start: nat, j: nat, element: TypeExpr, k: nat, size: int, modName: string)
    requires start <= j && Is(ts, j, LeftSquareBracket) && ParseType(ts, j + 1, modName) == Success(Parsed(element, k))
    requires ParseArraySize(ts, k, element, j - start) == Success(Parsed(ArrayOf(element, size, j - start), k + 3))
    ensures ParseTypeBody(ts, start, j, modName) == Success(Parsed(ArrayOf(element, size, j - start), k + 3))
  {
  }

  /** `;`, a literal `stoi` reads as `size`, and `]` close an array type. */
  lemma ArraySuffixParses(ts: seq<Token>, k: nat, element: TypeExpr, size: int, level: nat)
    requires Is(ts, k, Semicolon) && Is(ts, k + 1, IntLiteral) && Numbers.StoI(ts[k + 1].value) == Success(size)
    requires Is(ts, k + 2, RightSquareBracket)
    ensures ParseArraySize(ts, k, element, level) == Success(Parsed(ArrayOf(element, size, level), k + 3))
  {
  }
}

=== FILE: spelling.dfy ===
/** Where a type or an expression is written in a token vector: the
    grammar the parser is proved against, stated position by position.
    Each construct has a width (how many tokens it takes), and a predicate
    saying that the tokens from a position on spell it. Operands are
    parenthesised exactly when the operator table requires it, and every
    list element is followed by a comma. */
module Spelling {
  import opened Tokens
  import opened Ast
  import opened Parser
  import Numbers

  function Tok(kind: TokenKind): Token {
    Token(kind, "")
  }

  function Ident(name: string): Token {
    Token(Identifier, name)
  }

  /** The token at `i` exists and is `t`, value included. */
  predicate Has(ts: seq<Token>, i: nat, t: Token) {
    i < |ts| && ts[i] == t
  }

  /** Decimal spelling of an integer the printer writes; only non-negative
      sizes and literals are printable. */
  function Decimal(v: int): string {
    Numbers.NatToString(if v < 0 then 0 else v)
  }

  // ---------------------------------------------------------------------
  // Types

  /** Types whose spelling the parser reads back: a plain name must be a
      builtin one (any other bare name means a struct), sizes are
      non-negative and fit in an `int`. */
  predicate TypePrintable(t: TypeExpr) {
    match t
    case Named(name, _) => IsBuiltinType(name)
    case StructRef(_, _, _) => true
    case ArrayOf(element, size, _) => 0 <= size <= Numbers.IntMax && TypePrintable(element)
  }

  function TypeWidth(t: TypeExpr): nat {
    t.pointerLevel + match t
      case Named(_, _) => 1
      case StructRef(_, _, _) => 3
      case ArrayOf(e, _, _) => TypeWidth(e) + 4
  }

  /** `n` pointer sigils from `i` on. */
  predicate SigilsAt(ts: seq<Token>, i: nat, n: nat) {
    i + n <= |ts| && forall k :: i <= k < i + n ==> ts[k].kind == Pointer
  }

  /** The pointer sigils of `t` from `i` on, then its body. */
  predicate SpellsType(ts: seq<Token>, i: nat, t: TypeExpr)
    decreases t, 1
  {
    i + TypeWidth(t) <= |ts| && SigilsAt(ts, i, t.pointerLevel) && SpellsTypeBody(ts, i + t.pointerLevel, t)
  }

  /** `name`, `m:N`, or `[element; size]`. */
  predicate SpellsTypeBody(ts: seq<Token>, j: nat, t: TypeExpr)
    decreases t, 0
  {
    match t
    case Named(name, _) => Has(ts, j, Ident(name))
    case StructRef(m, name, _) => Has(ts, j, Ident(m)) && Is(ts, j + 1, Colon) && Has(ts, j + 2, Ident(name))
    case ArrayOf(e, size, _) =>
      Is(ts, j, LeftSquareBracket) && SpellsType(ts, j + 1, e) &&
      var k := j + 1 + TypeWidth(e);
      Is(ts, k, Semicolon) && Has(ts, k + 1, Token(IntLiteral, Decimal(size))) && Is(ts, k + 2, RightSquareBracket)
  }

  // ---------------------------------------------------------------------
  // Expressions

  /** Expressions whose spelling the parser reads back: operators come
      from the precedence table or the prefix set, literals are
      non-negative and fit in an `int`, access paths and array literals are non-empty; the
      null node and statements have no spelling. */
  predicate Printable(e: Node) {
    match e
    case IntLit(v) => 0 <= v <= Numbers.IntMax
    case StrLit(_) => true
    case BoolLit(_) => true
    case CharLit(_) => true
    case Var(_) => true
    case Access(_, steps) => |steps| > 0 && forall k :: 0 <= k < |steps| ==> StepPrintable(steps[k])
    case Binary(op, lhs, rhs) => Prec(op) >= 0 && Printable(lhs) && Printable(rhs)
    case Unary(op, operand) => IsPrefixOperator(op) && Printable(operand)
    case Call(_, _, args) => forall k :: 0 <= k < |args| ==> Printable(args[k])
    case StructLit(_, _, inits) => forall k :: 0 <= k < |inits| ==> Printable(inits[k].value)
    case ArrayLit(elements) => |elements| > 0 && forall k :: 0 <= k < |elements| ==> Printable(elements[k])
    case Cast(target, operand) => TypePrintable(target) && Printable(operand)
    case _ => false
  }

  predicate StepPrintable(s: Step) {
    match s
    case Index(index) => Printable(index)
    case Field(_) => true
  }

  /** A binary expression in a context that binds at `minPrec` needs
      parentheses when its operator binds more loosely. */
  predicate NeedsParens(e: Node, minPrec: int) {
    e.Binary? && Prec(e.op) < minPrec
  }

  /** Width of `e` as an operand at level `minPrec`. */
  function Width(e: Node, minPrec: int): nat
    decreases e, 1
  {
    if NeedsParens(e, minPrec) then ExprWidth(e) + 2 else ExprWidth(e)
  }

  function ExprWidth(e: Node): nat
    decreases e, 0
  {
    match e
    case Access(_, steps) => 1 + StepsWidth(steps)
    case Binary(op, lhs, rhs) => Width(lhs, Prec(op)) + 1 + Width(rhs, Prec(op) + 1)
    case Unary(_, operand) => 1 + Width(operand, 6)
    case Call(_, _, args) => 5 + ListWidth(args)
    case StructLit(_, _, inits) => 5 + InitsWidth(inits)
    case ArrayLit(elements) => 2 + ListWidth(elements)
    case Cast(target, operand) => 5 + TypeWidth(target) + Width(operand, 0)
    case _ => 1
  }

  function ListWidth(es: seq<Node>): nat {
    if es == [] then 0 else Width(es[0], 0) + 1 + ListWidth(es[1..])
  }

  function StepsWidth(steps: seq<Step>): nat {
    if steps == [] then 0 else StepWidth(steps[0]) + StepsWidth(steps[1..])
  }

  function StepWidth(s: Step): nat {
    match s
    case Index(index) => Width(index, 0) + 2
    case Field(_) => 2
  }

  function InitsWidth(inits: seq<FieldInit>): nat {
    if inits == [] then 0 else 3 + Width(inits[0].value, 0) + InitsWidth(inits[1..])
  }

  /** `e` as an operand at level `minPrec`: in parentheses when it needs them. */
  predicate SpellsOperand(ts: seq<Token>, i: nat, e: Node, minPrec: int)
    decreases e, 1
  {
    if NeedsParens(e, minPrec) then
      Is(ts, i, LeftParen) && SpellsExpr(ts, i + 1, e) && Is(ts, i + 1 + ExprWidth(e), RightParen)
    else SpellsExpr(ts, i, e)
  }

  predicate SpellsExpr(ts: seq<Token>, i: nat, e: Node)
    decreases e, 0
  {
    match e
    case IntLit(v) => Has(ts, i, Token(IntLiteral, Decimal(v)))
    case StrLit(text) => Has(ts, i, Token(StringLiteral, text))
    case BoolLit(truth) => Has(ts, i, Token(BoolLiteral, if truth then "true" else "false"))
    case CharLit(ch) => Has(ts, i, Token(CharLiteral, [ch]))
    case Var(name) => Has(ts, i, Ident(name))
    case Access(name, steps) => Has(ts, i, Ident(name)) && SpellsSteps(ts, i + 1, steps)
    case Binary(op, lhs, rhs) =>
      var k := i + Width(lhs, Prec(op));
      SpellsOperand(ts, i, lhs, Prec(op)) && Is(ts, k, op) && SpellsOperand(ts, k + 1, rhs, Prec(op) + 1)
    case Unary(op, operand) => Is(ts, i, op) && SpellsOperand(ts, i + 1, operand, 6)
    case Call(m, name, args) =>
      Has(ts, i, Ident(m)) && Is(ts, i + 1, Colon) && Has(ts, i + 2, Ident(name)) && Is(ts, i + 3, LeftParen)
      && SpellsList(ts, i + 4, args) && Is(ts, i + 4 + ListWidth(args), RightParen)
    case StructLit(m, name, inits) =>
      Has(ts, i, Ident(m)) && Is(ts, i + 1, Colon) && Has(ts, i + 2, Ident(name)) && Is(ts, i + 3, LeftBrace)
      && SpellsInits(ts, i + 4, inits) && Is(ts, i + 4 + InitsWidth(inits), RightBrace)
    case ArrayLit(elements) =>
      Is(ts, i, LeftSquareBracket) && SpellsList(ts, i + 1, elements) && Is(ts, i + 1 + ListWidth(elements), RightSquareBracket)
    case Cast(target, operand) =>
      var k := i + 3 + TypeWidth(target);
      Is(ts, i, At) && Has(ts, i + 1, Ident("cast")) && Is(ts, i + 2, LeftParen) && SpellsType(ts, i + 3, target)
      && Is(ts, k, Comma) && SpellsOperand(ts, k + 1, operand, 0) && Is(ts, k + 1 + Width(operand, 0), RightParen)
    case _ => false
  }

  /** Expressions, each followed by a comma. */
  predicate SpellsList(ts: seq<Token>, i: nat, es: seq<Node>)
    decreases es
  {
    es == [] ||
    (SpellsOperand(ts, i, es[0], 0) && Is(ts, i + Width(es[0], 0), Comma)
     && SpellsList(ts, i + Width(es[0], 0) + 1, es[1..]))
  }

  predicate SpellsSteps(ts: seq<Token>, i: nat, steps: seq<Step>)
    decreases steps
  {
    steps == [] || (SpellsStep(ts, i, steps[0]) && SpellsSteps(ts, i + StepWidth(steps[0]), steps[1..]))
  }

  /** `[index]` or `.field`. */
  predicate SpellsStep(ts: seq<Token>, i: nat, s: Step)
    decreases s
  {
    match s
    case Index(index) =>
      Is(ts, i, LeftSquareBracket) && SpellsOperand(ts, i + 1, index, 0) && Is(ts, i + 1 + Width(index, 0), RightSquareBracket)
    case Field(field) => Is(ts, i, Dot) && Has(ts, i + 1, Ident(field))
  }

  /** `field : value ,` for each initialiser. */
  predicate SpellsInits(ts: seq<Token>, i: nat, inits: seq<FieldInit>)
    decreases inits
  {
    inits == [] ||
    (var k := i + 2 + Width(inits[0].value, 0);
     Has(ts, i, Ident(inits[0].field)) && Is(ts, i + 1, Colon) && SpellsOperand(ts, i + 2, inits[0].value, 0)
     && Is(ts, k, Comma) && SpellsInits(ts, k + 1, inits[1..]))
  }

  /** A token that cannot continue the operand in front of it: not a call
      or literal opener, not a module separator, not an access step. */
  predicate Stops(kind: TokenKind) {
    kind != LeftParen && kind != LeftBrace && kind != Colon && kind != LeftSquareBracket && kind != Dot
  }

  /** The token at `k` ends an expression parsed at level `minPrec`. */
  predicate Ends(ts: seq<Token>, k: nat, minPrec: int) {
    k < |ts| && Prec(ts[k].kind) < minPrec && Stops(ts[k].kind)
  }
}

=== FILE: tokens.dfy ===
/** Token kinds and tokens shared by the scanner and the parser.

    `TokenType` of lexer.h is a C++ enumeration, that is, a small integer:
    each kind below has the value its enumerator has there, in declaration
    order from 0. lexer.cpp also maps its only keyword to
    `TOKEN_KEYWORD_FN`, which lexer.h does not declare; it
    gets the next free value. */
module Tokens {

  newtype TokenKind = k: int | 0 <= k <= 50

  // keywords
  const KeywordReturn: TokenKind := 0
  const KeywordExtern: TokenKind := 1
  const KeywordFor: TokenKind := 2
  const KeywordWhile: TokenKind := 3
  const KeywordLet: TokenKind := 4
  const KeywordIf: TokenKind := 5
  const KeywordElse: TokenKind := 6
  const KeywordTrue: TokenKind := 7
  const KeywordFalse: TokenKind := 8
  const KeywordNull: TokenKind := 9
  const KeywordStruct: TokenKind := 10
  const KeywordImport: TokenKind := 11
  const KeywordModule: TokenKind := 12
  // arithmetic
  const Plus: TokenKind := 13
  const Minus: TokenKind := 14
  const Mul: TokenKind := 15
  const Div: TokenKind := 16
  const Mod: TokenKind := 17
  // comparison, logic and assignment
  const Equal: TokenKind := 18
  const NotEqual: TokenKind := 19
  const Less: TokenKind := 20
  const Greater: TokenKind := 21
  const LessEqual: TokenKind := 22
  const GreaterEqual: TokenKind := 23
  const And: TokenKind := 24
  const Or: TokenKind := 25
  const Not: TokenKind := 26
  const Assign: TokenKind := 27
  // literals
  const IntLiteral: TokenKind := 28
  const StringLiteral: TokenKind := 29
  const BoolLiteral: TokenKind := 30
  const CharLiteral: TokenKind := 31
  // delimiters
  const LeftBrace: TokenKind := 32
  const RightBrace: TokenKind := 33
  const LeftParen: TokenKind := 34
  const RightParen: TokenKind := 35
  const RightSquareBracket: TokenKind := 36
  const LeftSquareBracket: TokenKind := 37
  const Identifier: TokenKind := 38
  const Comma: TokenKind := 39
  const Hashtag: TokenKind := 40
  const At: TokenKind := 41
  const Semicolon: TokenKind := 42
  const Pointer: TokenKind := 43
  const Reference: TokenKind := 44
  const Dot: TokenKind := 45
  const Colon: TokenKind := 46
  const Arrow: TokenKind := 47
  const EOF: TokenKind := 48
  const Unknown: TokenKind := 49
  // lexer.cpp only
  const KeywordFn: TokenKind := 50

  /** A token: its kind and the text it carries. Source positions only feed
      diagnostics and are not modelled. */
  datatype Token = Token(kind: TokenKind, value: string)
}

=== FILE: wrappers.dfy ===
/** Failure-compatible result and option types shared by every module.

    The compiler reports every unmet expectation by printing a diagnostic and
    terminating the process. The model turns that termination into a
    `Failure` carrying the diagnostic text, propagated with `:-`. */
module Wrappers {

  datatype Option<+T> = None | Some(value: T)

  datatype Result<+T> = Success(value: T) | Failure(error: string) {

    predicate IsFailure() {
      Failure?
    }

    function PropagateFailure<U>(): Result<U>
      requires Failure?
    {
      Failure(error)
    }

    function Extract(): T
      requires Success?
    {
      value
    }
  }
}
